=== FILE: README.md ===
# formao form builder — a Dafny model

This project models the pure core of the formao form scaffolder. Given a model's attribute metadata (the ORM's `rawAttributes`), the builder keeps the attribute names that do not end in "id" or "at" in any letter case (a test meant to drop keys and timestamps, which also drops names such as `format` and keeps ones such as `deletedOn`). For each kept field it generates a DOM id, dispatches the attribute's type to an input template, and builds the data record handed to that template. Around that sits the builder's configuration state:

- the method and action getters and setters;
- a shallow-merged attribute map;
- an ordered, duplicate-free class list;
- the defaulting of action and instance from the request when `render` runs.

Two versions of the builder exist and both are modelled:

- `lib/formao.js`, the live one (module `Formao`);
- `lib/forms.js`, an older copy (module `Forms`). Its differences that the model keeps:
  - every `case` label of its type `switch` is `undefined`, so its dispatch is degenerate;
  - it switches on the raw `type`, without the `_typeName` fallback for function types (lib/forms.js:54);
  - its `addClass` intersects rather than unites, so its class list is always empty;
  - its `addAttribute` returns undefined instead of the builder (lib/forms.js:147-149), so it ends a chain;
  - its classes live in a separate `extraClasses` list, and its default template directory is "forms";
  - it exports `buildValidationClasses`.

The model is functional. A builder is an immutable record. Each prototype method is a pure function that returns the new record, in place of the `this` that the chained JavaScript methods return. `render` is modelled up to the templating engine. It returns the updated builder together with a plan: for each kept field, the template path and the data `app.render` would receive, plus the form template.

Files:

- `wrappers.dfy` — `Option` and `Result`.
- `js_values.dfy` — JavaScript values, falsiness, property access, `String()` and `Array.prototype.join`.
- `field_filter.dfy` — `filterAutoDatesAndID`.
- `dom_ids.dfy` — `makeID` and its sanitising `replace`.
- `lodash.dfy` — `_.union` and `_.intersection`.
- `class_split.dfy` — `split(/\s+/)`.
- `field_types.dfy` — attribute metadata and both type dispatches.
- `formao.dfy` — the lib/formao.js builder.
- `forms.dfy` — the lib/forms.js builder.
- `fixtures.dfy` — the `MyModel` fixture of test/config.js, and an end-to-end configuration of it.

Facts about the code that the model keeps as written:

- A field's label is the field name itself (lib/formao.js:40).
- `id` and `class` live in the same attribute map as every other attribute (lib/formao.js:124-127), so `attr(map)` can overwrite them.
- The template directory is the constant "formao" in lib/formao.js:113-115 and "forms" in lib/forms.js:112-114. The constructor's doc comment (lib/formao.js:104-106) says the default is 'forms/'; the model follows the code.
- `render` changes the builder: it fills in action and instance (lib/formao.js:184-189). `RenderTwice` shows that rendering again gives the same result.
- Action and instance are defaulted when they are falsy (`!this._action`, `!this._instance`), so an explicitly set empty action is replaced by `req.url`. A request without a truthy `url` or `body` leaves them as they were.

## Model

| member | source | states |
|---|---|---|
| FieldFilter.Retain | lib/formao.js:22 | a name is kept exactly when it does not end in "id" or "at" in any letter case, and filtering never adds names |
| FieldFilter.RetainAppend | lib/formao.js:130-132 | filtering distributes over concatenation, so kept names stay in their original order |
| FieldFilter.RetainSingle | lib/formao.js:22 | a single name survives exactly when it is not an automatic field |
| FieldFilter.RetainDistinct | lib/formao.js:130-132 | distinct attribute names remain distinct after filtering |
| FieldFilter.RetainUniform | lib/formao.js:130-132 | a list with no automatic names is kept whole; a list of only automatic names is dropped whole |
| FieldFilter.AutoFieldExamples | lib/formao.js:22 | `id`, `userId`, `createdAt` and `UPDATEDAT` are dropped; so are `format` and `paid`, which end in "at" and "id"; `name` and `startDate` are kept |
| DomIds.SanitizeFromOutput | lib/formao.js:26 | the sanitised name uses only `[A-Za-z0-9_-]` and is never longer than the input |
| DomIds.SanitizeKeepsValid | lib/formao.js:26 | a name made only of allowed characters is unchanged |
| DomIds.SanitizeIdempotent | lib/formao.js:26 | sanitising twice equals sanitising once |
| DomIds.SanitizeFixedPointIff | lib/formao.js:26 | a name is unchanged by sanitising if and only if it uses only allowed characters |
| DomIds.SanitizeFromAppend | lib/formao.js:26 | the replacement is a left-to-right scan: sanitising a concatenation is sanitising each part, carrying over whether a run is open |
| DomIds.SanitizeCollapsesRun | lib/formao.js:26 | a maximal run of disallowed characters between allowed context becomes exactly one underscore |
| DomIds.SanitizeTwoWords | lib/formao.js:26 | two valid words, each followed by a run of disallowed characters, become the words each followed by one underscore |
| DomIds.MakeId | lib/formao.js:25-28 | the id is the form id as `join` renders it, then `_`, then the sanitised field name |
| DomIds.MakeIdShape | lib/formao.js:25-28 | for a string form id, the id starts with that id and `_`, the rest uses only allowed characters, and a valid field name appears verbatim |
| DomIds.MakeIdWithoutFormId | lib/formao.js:27 | an undefined or null form id contributes the empty string, leaving a leading `_` |
| DomIds.MakeIdExample | lib/formao.js:25-28 | "my field!" under form id "F" gives "F_my_field_" |
| Lodash.Extend | lib/formao.js:169-172 | appending unseen elements keeps the old list as a prefix, adds exactly the given elements, and keeps the list duplicate-free |
| Lodash.Union | lib/formao.js:169-172 | `_.union` contains exactly the elements of both lists, each once |
| Lodash.ExtendAppend | lib/formao.js:169-172 | adding a concatenation adds each part in turn |
| Lodash.ExtendFresh | lib/formao.js:169-172 | distinct elements that are all new are appended unchanged, in order |
| Lodash.ExtendAbsorbed | lib/formao.js:169-172 | elements already present change nothing |
| Lodash.UnionOfDistinct | lib/formao.js:169-172 | the union of a duplicate-free list with new tokens is that list followed by the unseen tokens |
| Lodash.UnionIdempotent | lib/formao.js:169-172 | taking the union with the same tokens twice equals taking it once |
| Lodash.Intersection | lib/forms.js:151-154 | `_.intersection` contains exactly the elements in both lists, each once, and is no longer than the first |
| Lodash.IntersectFromKeep | lib/forms.js:151-154 | the intersection scan is first-occurrence de-duplication of the first list filtered by the second |
| Lodash.IntersectionOrder | lib/forms.js:151-154 | `_.intersection` keeps the order of the first list: it is that list filtered by the second and de-duplicated, and exactly the filtered list when the first list has no duplicates |
| ClassSplit.SplitPieces | lib/formao.js:171 | splitting on `/\s+/` yields at least one piece, and no piece contains white space |
| ClassSplit.SplitJoin | lib/formao.js:171 | splitting non-empty, white-space-free words joined by single spaces gives the words back |
| ClassSplit.SplitExamples | lib/formao.js:171 | runs of mixed white space separate once; leading or trailing white space yields an empty piece; the empty string yields one empty piece |
| FieldTypes.ResolvedTypeSources | lib/formao.js:48-52 | `_typeName` and `values` never influence the switch for a type that is not a function; a function reaches the switch only when `_typeName` is one too, and then selects the text input |
| FieldTypes.DispatchTable | lib/formao.js:52-78 | BOOLEAN gives checkbox, ENUM select, DATE date, FLOAT/INTEGER/BIGINT number, TEXT textarea, and anything else text, each in both directions |
| FieldTypes.KindOfName | lib/formao.js:52-78 | a template name read back as a kind names that kind |
| FieldTypes.KindNameInjective | lib/formao.js:52-78 | distinct input kinds use distinct template names |
| FieldTypes.LegacyDispatchDegenerate | lib/forms.js:51-77 | the older dispatch picks checkbox exactly for an undefined type and text otherwise; on the same type value it differs from the live switch exactly on undefined and the seven dispatched tags |
| Formao.NewForm | lib/formao.js:112-134 | a new builder has attributes exactly `{id: name + "_Form", class: []}`, method "POST", a null action and instance, template directory "formao", and keeps exactly the non-automatic attribute names |
| Formao.NewFormIgnoresArguments | lib/formao.js:117-122 | the options and instance arguments never change the builder, because the guard reads the unset `this.arguments` |
| Formao.NewFormKeys | lib/formao.js:130-132 | for a well-formed model, the kept keys are the filtered attribute keys in order, each once, each defined |
| Formao.Fill | lib/formao.js:138-141 | `data()` reads back the filled instance, and nothing else changes |
| Formao.SetMethod | lib/formao.js:142-148 | `method()` reads back the method set, and nothing else changes |
| Formao.SetAction | lib/formao.js:149-155 | `action()` reads back the action set, and nothing else changes |
| Formao.AccessorRoundTrips | lib/formao.js:135-155 | for method, action and instance: get after set returns the value; setting the current value is a no-op; the last set wins |
| Formao.MergeAttr | lib/formao.js:156-163 | `attr(map)` is a shallow merge: the map's keys take its values, and every other attribute is unchanged |
| Formao.MergeAttrLaws | lib/formao.js:161 | merging an empty map changes nothing; two merges equal one merge of both maps, with the later one winning |
| Formao.AddAttribute | lib/formao.js:164-167 | `addAttribute(k, v)` sets key k to v and leaves every other attribute alone |
| Formao.AddAttributeIsMerge | lib/formao.js:156-167 | `addAttribute(k, v)` is `attr({k: v})`, and `attr()` then shows v under k |
| Formao.ClassTokenShape | lib/formao.js:171 | every `addClass` call contributes at least one token, and each token is a string with no white space |
| Formao.ClassTokensOfWords | lib/formao.js:171 | a class string of non-empty words separated by single spaces contributes exactly those words, in order |
| Formao.AddClass | lib/formao.js:168-174 | the class list becomes a duplicate-free array holding exactly the old classes and the new tokens; other attributes are unchanged |
| Formao.AddClassAppends | lib/formao.js:168-174 | on a duplicate-free list, `addClass` keeps the old list as a prefix and appends the unseen tokens in order |
| Formao.AddClassIdempotent | lib/formao.js:168-174 | repeating an `addClass` call leaves the builder unchanged |
| Formao.Defaulted | lib/formao.js:184-189 | a falsy action becomes `req.url` and a falsy instance becomes `req.body` when both request and property are truthy; otherwise (truthy value, falsy request, or falsy `url`/`body`) the property is kept; nothing else changes |
| Formao.DefaultedIdempotent | lib/formao.js:184-189 | applying the defaulting twice with one request equals applying it once |
| Formao.FillDecidesInstance | lib/formao.js:34-37 | after `fill(v)`, fields read from `v` when it is truthy and from the blank instance otherwise, whatever the builder held before |
| Formao.FieldValue | lib/formao.js:43 | the value is the instance's own property, or `''` when that is falsy, so a template never receives another falsy value |
| Formao.FormField | lib/formao.js:30-81 | an undefined attribute is an error; otherwise the template is dir/kind, label and name are the field, the id is `makeID`, the value falls back to `''`, `otherAttr` is present exactly for a checkbox, and `values` exactly for a select |
| Formao.FormFieldExtras | lib/formao.js:53-60 | a checkbox carries `{checked: 'checked'}` and a select carries the attribute's `values` |
| Formao.CollectFields | lib/formao.js:193-195 | every kept field gets its `formField` request exactly when all are defined; otherwise the error names the first undefined one |
| Formao.Render | lib/formao.js:175-205 | render always defaults the state first; the plan exists exactly when every kept key is defined, and it has one entry per kept key under template dir/form |
| Formao.RenderFieldRequest | lib/formao.js:193-195 | each planned field is `formField` applied to the defaulted builder |
| Formao.RenderKeptFields | lib/formao.js:193-195 | a builder made from a well-formed model renders exactly the model's non-automatic keys, however it was configured |
| Formao.RenderTwice | lib/formao.js:175-205 | rendering the builder a render leaves behind, with the same request, repeats the same state and plan |
| Formao.RenderFillsFromBody | lib/formao.js:187-189 | a builder never filled takes its field values from the request body |
| Forms.NewLegacyForm | lib/forms.js:111-131 | the older builder starts with attributes exactly `{id: name + "_Form"}`, an empty class list, method "POST", null action and instance, and template directory "forms" |
| Forms.LegacySharesKeysAndId | lib/forms.js:124-129 | both builders keep the same fields and use the same form id for `makeID` |
| Forms.LegacyFill | lib/forms.js:132-135 | `fill` sets the instance and nothing else |
| Forms.LegacyAddAttribute | lib/forms.js:147-149 | `addAttribute(k, v)` sets key k to v and leaves the other attributes alone |
| Forms.LegacyAddClass | lib/forms.js:150-156 | the class list becomes the classes already listed that are also among the new tokens; it never grows |
| Forms.LegacyAddClassOrder | lib/forms.js:150-156 | on a duplicate-free list, `addClass` keeps exactly the listed classes that are among the new tokens, in their listed order |
| Forms.LegacyClassesNeverGrow | lib/forms.js:150-156 | after any sequence of `addClass` calls the list is no longer than before and only holds classes it held before |
| Forms.LegacyClassesStayEmpty | lib/forms.js:123 | starting from the constructor's empty list, the class list stays empty whatever classes are added |
| Forms.LegacyFormField | lib/forms.js:35-80 | the same data record as the live builder; template dir/checkbox exactly for an undefined type and dir/text otherwise; `values` is never set |
| Forms.FieldDataAgrees | lib/forms.js:45-50 | with the same form id and instance, both builders give a field the same label, name, id and value; the older one only chooses checkbox or text |
| Forms.BuildValidationClasses | lib/forms.js:13-25 | the output has exactly the input's own keys, each mapped to an object with exactly the properties `class` ("has-error") and `data-message` (that key's message) |
| Forms.ValidationMessagesRoundTrip | lib/forms.js:13-25 | reading the messages back out of the result gives exactly the input errors |
| Fixtures.MyModelWellFormed | test/config.js:10-17 | the fixture model's attribute keys are distinct and match its definitions |
| Fixtures.MyModelKeptFields | test/config.js:10-17 | both builders drop `id`, `createdAt` and `updatedAt` and keep the six declared fields in order |
| Fixtures.NameField | test/config.js:11 | the STRING field renders as formao/text with id "MyModel_Form_name" and the instance's value |
| Fixtures.DescriptionField | test/config.js:12 | the TEXT field renders as formao/textarea with the instance's text |
| Fixtures.StageField | test/config.js:15 | the ENUM field renders as formao/select carrying its declared values |
| Fixtures.CompletedField | test/config.js:16 | the BOOLEAN field renders as formao/checkbox, and its value falls back to `''` |
| Fixtures.AddClassExample | lib/formao.js:168-174 | `addClass("a b")` then `addClass("b c")` gives the classes a, b, c |
| Fixtures.ScenarioState | lib/formao.js:124-174 | after setting method, action, two classes and one attribute, the attributes are exactly id, the two classes and `data-testing` |
| Fixtures.ScenarioAccessors | lib/formao.js:142-155 | the method and action set in the scenario are read back |
| Fixtures.FixtureRender | lib/formao.js:191-195 | the filled fixture builder plans one request per kept field, under formao/form |
| Fixtures.FixtureRenderName | lib/formao.js:193-195 | the planned name field is the text input with the form-scoped id and the instance's value |
| Fixtures.ScenarioRender | lib/formao.js:175-205 | end to end, the configured and filled fixture builder renders the six kept fields, with the name as a text input |
| Fixtures.LegacyFixtureAllText | lib/forms.js:51-77 | the older builder renders every fixture field as forms/text, because none has an undefined type |

## Left out

- `model.build({})` (lib/formao.js:36): the ORM's blank instance is a parameter, `blank`, of every member that reads field values.
- `rawAttributes` introspection: a model is its name, its attribute keys in `Object.keys` order, and a map of definitions. The integer-like-keys-first ordering rule of `Object.keys` is not modelled; the key sequence is taken as given.
- ORM type constants: they are abstract `TypeTag`s, one per constant, assumed distinct from each other. A type value whose `typeof` is 'function' is one opaque `TypeFunction`. Three assumptions about the ORM packages follow from this and are not checked: (1) the constants the switch compares against are not functions, so a `Tag` never takes the `_typeName` path of lib/formao.js:49-51, although in the ORM `ENUM` is callable (test/config.js:15 calls it); (2) the types test/config.js:3 takes from `sequelize-sqlite` are the same values as the `sequelize` constants lib/formao.js:6 compares against; (3) `Sequelize.ENUM('pending', …)` is stored as the ENUM constant, with `values` holding its arguments. The fixture's textarea, select and checkbox fields rest on these assumptions.
- `app.render`, `Promise.promisify` and `Promise.props` (lib/formao.js:177, lib/formao.js:197-204): `Render` returns the requests it would issue instead of awaiting HTML. Concurrency and rejection of the promises are not modelled.
- `path.join`: modelled as `dir + "/" + name`. Normalisation of `..`, repeated or trailing separators is not modelled.
- `console.log` (lib/formao.js:75, lib/forms.js:23): logging has no effect on the result.
- The `helpers` middleware of lib/forms.js:7-11: it references globals that do not exist.
- The `method`, `action` and `attr` methods of lib/forms.js: the constructor assigns instance properties of the same names (lib/forms.js:124-128), which shadow them.
- The `render` method of lib/forms.js: it is not shadowed, but it reads `req.url` without checking that `req` exists (lib/forms.js:159-161), and under `'use strict'` its `forEach` callback calls `formField` with an undefined `this` (lib/forms.js:164-166), so it throws on the first kept key.
- The commented-out `buildValidationClasses` in lib/formao.js:8-20.
- Object identity and aliasing: `attr()` returns the live attribute object, which the caller could mutate. Here it returns a value. Lodash compares array and object elements with SameValueZero, which is identity for those; `JsVal` equality is structural. So after `attr({class: [[], []]})`, `addClass` keeps two entries in JavaScript and one here.
- JavaScript numbers are integers plus `NaN`: fractional values, infinities and `-0` are not modelled, and `String()` of a number is its decimal form.
- Only own properties of plain objects are read: inherited, indexed and accessor properties are not modelled. So an instance or request that is not a plain object reads as having no properties.
- `addClass` with a non-string argument throws in JavaScript; the model takes a string.
- Formao.MergeAttr: takes a map of JavaScript values, so a non-object argument to `attr` (which `_.assign` ignores or spreads) is not modelled.
- Forms.BuildValidationClasses: a non-object argument has no own properties and gives an empty object. Strings and arrays, whose indices `for...in` would visit, are not modelled.
- Property order of JavaScript objects: `_attr` (returned by `attr()`, lib/formao.js:158) keeps `id`, `class`, then added keys in insertion order, and the `fields` object handed to the form template (lib/formao.js:193-195) is built in `_formKeys` order; the object `buildValidationClasses` returns (lib/forms.js:15-21) has its keys in the `for...in` order of the errors object. All three are Dafny maps here, which carry no order; the field order is the state's `formKeys` sequence, whose order FieldFilter.RetainAppend and Formao.NewFormKeys state.
- Formao.NewForm: states the kept keys by membership. Their order is stated by FieldFilter.RetainAppend and Formao.NewFormKeys.

=== FILE: class_split.dfy ===
/**
  `classes.split(/\s+/)`: the pieces of a string between maximal runs of
  ECMAScript white space. Leading or trailing white space yields an empty
  first or last piece, and the empty string yields one empty piece.
 */
module ClassSplit {
  import opened JsValues

  /** `\s`: the ECMAScript WhiteSpace and LineTerminator code points. */
  predicate IsJsSpace(c: char) {
    c == '\t' || c == '\n' || c == '\U{000B}' || c == '\U{000C}' || c == '\r' || c == ' '
    || c == '\U{00A0}' || c == '\U{1680}' || ('\U{2000}' <= c <= '\U{200A}')
    || c == '\U{2028}' || c == '\U{2029}' || c == '\U{202F}' || c == '\U{205F}'
    || c == '\U{3000}' || c == '\U{FEFF}'
  }

  predicate NoSpace(s: string) {
    forall i :: 0 <= i < |s| ==> !IsJsSpace(s[i])
  }

  /** Splits `s` with `cur` the piece read so far; `inRun` records that the
      previous character was white space, so that the piece was already emitted. */
  function SplitFrom(s: string, cur: string, inRun: bool): (r: seq<string>)
    decreases |s|
  {
    if s == [] then [cur]
    else if !IsJsSpace(s[0]) then SplitFrom(s[1..], cur + [s[0]], false)
    else if inRun then SplitFrom(s[1..], cur, true)
    else [cur] + SplitFrom(s[1..], "", true)
  }

  function Split(s: string): seq<string> {
    SplitFrom(s, "", false)
  }

  /** There is always at least one piece and no piece contains white space. */
  lemma {:induction false} SplitFromPieces(s: string, cur: string, inRun: bool)
    requires NoSpace(cur)
    ensures |SplitFrom(s, cur, inRun)| >= 1
    ensures forall i :: 0 <= i < |SplitFrom(s, cur, inRun)| ==> NoSpace(SplitFrom(s, cur, inRun)[i])
    decreases |s|
  {
    if s != [] {
      if !IsJsSpace(s[0]) {
        SplitFromPieces(s[1..], cur + [s[0]], false);
      } else if inRun {
        SplitFromPieces(s[1..], cur, true);
      } else {
        SplitFromPieces(s[1..], "", true);
      }
    }
  }

  lemma SplitPieces(s: string)
    ensures |Split(s)| >= 1
    ensures forall i :: 0 <= i < |Split(s)| ==> NoSpace(Split(s)[i])
  {
    SplitFromPieces(s, "", false);
  }

  /** Reading a word without white space extends the current piece. */
  lemma {:induction false} SplitFromWord(t: string, v: string, cur: string, inRun: bool)
    requires |t| > 0 && NoSpace(t)
    ensures SplitFrom(t + v, cur, inRun) == SplitFrom(v, cur + t, false)
    decreases |t|
  {
    assert (t + v)[0] == t[0];
    assert (t + v)[1..] == t[1..] + v;
    if |t| == 1 {
      assert t[1..] + v == v;
      assert cur + [t[0]] == cur + t;
    } else {
      SplitFromWord(t[1..], v, cur + [t[0]], false);
      assert cur + [t[0]] + t[1..] == cur + t;
    }
  }

  /** Joining white-space-free, non-empty words with single spaces and splitting
      again gives back the words. */
  lemma {:induction false} SplitJoin(ts: seq<string>)
    requires |ts| >= 1
    requires forall i :: 0 <= i < |ts| ==> |ts[i]| > 0 && NoSpace(ts[i])
    ensures Split(JoinWith(ts, " ")) == ts
    decreases |ts|
  {
    if |ts| == 1 {
      SplitFromWord(ts[0], "", "", false);
      assert ts[0] + "" == ts[0];
    } else {
      var rest := JoinWith(ts[1..], " ");
      assert JoinWith(ts, " ") == ts[0] + (" " + rest);
      SplitFromWord(ts[0], " " + rest, "", false);
      assert "" + ts[0] == ts[0];
      assert (" " + rest)[1..] == rest;
      assert SplitFrom(" " + rest, ts[0], false) == [ts[0]] + SplitFrom(rest, "", true);
      SplitJoin(ts[1..]);
      assert |rest| > 0 && !IsJsSpace(rest[0]) by {
        assert rest[..|ts[1]|] == ts[1] by { JoinPrefix(ts[1..], " "); }
        assert rest[0] == ts[1][0];
      }
      assert SplitFrom(rest, "", true) == SplitFrom(rest, "", false);
      assert ts == [ts[0]] + ts[1..];
    }
  }

  /** The first part of a join is a prefix of it. */
  lemma JoinPrefix(parts: seq<string>, sep: string)
    requires |parts| >= 1
    ensures |JoinWith(parts, sep)| >= |parts[0]|
    ensures JoinWith(parts, sep)[..|parts[0]|] == parts[0]
  {
  }

  lemma SplitExamples()
    ensures Split("a b") == ["a", "b"]
    ensures Split("a \t b") == ["a", "b"]
    ensures Split(" a") == ["", "a"]
    ensures Split("a ") == ["a", ""]
    ensures Split("") == [""]
  {
    assert SplitFrom("b", "", true) == ["b"] by {
      assert SplitFrom("b", "", true) == SplitFrom("", "" + ['b'], false);
      assert "" + ['b'] == "b";
    }
    assert Split("a b") == ["a", "b"] by {
      assert SplitFrom("a b", "", false) == SplitFrom(" b", "" + ['a'], false);
      assert "" + ['a'] == "a";
      assert SplitFrom(" b", "a", false) == ["a"] + SplitFrom("b", "", true);
    }
    assert Split("a \t b") == ["a", "b"] by {
      assert SplitFrom("a \t b", "", false) == SplitFrom(" \t b", "" + ['a'], false);
      assert "" + ['a'] == "a";
      assert SplitFrom(" \t b", "a", false) == ["a"] + SplitFrom("\t b", "", true);
      assert SplitFrom("\t b", "", true) == SplitFrom(" b", "", true);
      assert SplitFrom(" b", "", true) == SplitFrom("b", "", true);
    }
    assert Split(" a") == ["", "a"] by {
      assert SplitFrom(" a", "", false) == [""] + SplitFrom("a", "", true);
      assert SplitFrom("a", "", true) == SplitFrom("", "" + ['a'], false);
      assert "" + ['a'] == "a";
    }
    assert Split("a ") == ["a", ""] by {
      assert SplitFrom("a ", "", false) == SplitFrom(" ", "" + ['a'], false);
      assert "" + ['a'] == "a";
      assert SplitFrom(" ", "a", false) == ["a"] + SplitFrom("", "", true);
    }
  }
}

=== FILE: dom_ids.dfy ===
/**
  DOM id generation for form fields (`makeID` in lib/formao.js and lib/forms.js):
  every maximal run of characters outside `[A-Za-z0-9_-]` in the field name is
  replaced by one underscore, and the result is joined to the form's id with `_`.
 */
module DomIds {
  import opened JsValues

  /** Characters allowed in a generated id: `[A-Za-z0-9_-]`. */
  predicate IsIdChar(c: char) {
    ('a' <= c <= 'z') || ('A' <= c <= 'Z') || ('0' <= c <= '9') || c == '_' || c == '-'
  }

  predicate AllIdChars(s: string) {
    forall i :: 0 <= i < |s| ==> IsIdChar(s[i])
  }

  /** `s.replace(/[^a-zA-Z0-9_-]+/g, '_')`, scanning left to right; `inRun` records
      that the previous character was already replaced by the pending underscore. */
  function SanitizeFrom(s: string, inRun: bool): (r: string)
    decreases |s|
  {
    if s == [] then []
    else if IsIdChar(s[0]) then [s[0]] + SanitizeFrom(s[1..], false)
    else if inRun then SanitizeFrom(s[1..], true)
    else ['_'] + SanitizeFrom(s[1..], true)
  }

  function Sanitize(s: string): string {
    SanitizeFrom(s, false)
  }

  /** The output uses allowed characters only and is never longer than the input. */
  lemma {:induction false} SanitizeFromOutput(s: string, inRun: bool)
    ensures AllIdChars(SanitizeFrom(s, inRun))
    ensures |SanitizeFrom(s, inRun)| <= |s|
    decreases |s|
  {
    if s != [] {
      SanitizeFromOutput(s[1..], !IsIdChar(s[0]));
    }
  }

  /** A name made only of allowed characters is left as it is. */
  lemma {:induction false} SanitizeFromKeepsValid(s: string, inRun: bool)
    requires AllIdChars(s)
    ensures SanitizeFrom(s, inRun) == s
    decreases |s|
  {
    if s != [] {
      SanitizeFromKeepsValid(s[1..], false);
    }
  }

  lemma SanitizeKeepsValid(s: string)
    requires AllIdChars(s)
    ensures Sanitize(s) == s
  {
    SanitizeFromKeepsValid(s, false);
  }

  /** Sanitizing twice is the same as sanitizing once. */
  lemma SanitizeIdempotent(s: string)
    ensures Sanitize(Sanitize(s)) == Sanitize(s)
  {
    SanitizeFromOutput(s, false);
    SanitizeKeepsValid(Sanitize(s));
  }

  /** A name is a fixed point of sanitizing exactly when it is already a valid id. */
  lemma SanitizeFixedPointIff(s: string)
    ensures Sanitize(s) == s <==> AllIdChars(s)
  {
    SanitizeFromOutput(s, false);
    if AllIdChars(s) {
      SanitizeKeepsValid(s);
    }
  }

  /** The scanning state after consuming `u` from state `inRun`. */
  function EndsInRun(u: string, inRun: bool): bool {
    if u == [] then inRun else !IsIdChar(u[|u| - 1])
  }

  /** Sanitizing distributes over concatenation, threading the run state. */
  lemma {:induction false} SanitizeFromAppend(u: string, v: string, inRun: bool)
    ensures SanitizeFrom(u + v, inRun) == SanitizeFrom(u, inRun) + SanitizeFrom(v, EndsInRun(u, inRun))
    decreases |u|
  {
    if u != [] {
      assert (u + v)[0] == u[0];
      assert (u + v)[1..] == u[1..] + v;
      var next := !IsIdChar(u[0]);
      SanitizeFromAppend(u[1..], v, next);
      assert EndsInRun(u[1..], next) == EndsInRun(u, inRun) by {
        if |u| > 1 {
          assert u[1..][|u[1..]| - 1] == u[|u| - 1];
        }
      }
      if IsIdChar(u[0]) {
        assert SanitizeFrom(u, inRun) == [u[0]] + SanitizeFrom(u[1..], next);
        assert SanitizeFrom(u + v, inRun) == [u[0]] + SanitizeFrom(u[1..] + v, next);
      } else if inRun {
        assert SanitizeFrom(u, inRun) == SanitizeFrom(u[1..], next);
        assert SanitizeFrom(u + v, inRun) == SanitizeFrom(u[1..] + v, next);
      } else {
        assert SanitizeFrom(u, inRun) == ['_'] + SanitizeFrom(u[1..], next);
        assert SanitizeFrom(u + v, inRun) == ['_'] + SanitizeFrom(u[1..] + v, next);
      }
    } else {
      assert u + v == v;
    }
  }

  /** A non-empty run of disallowed characters yields one underscore when it
      starts a run, and nothing when a run is already open. */
  lemma {:induction false} SanitizeFromRun(w: string, inRun: bool)
    requires |w| > 0
    requires forall i :: 0 <= i < |w| ==> !IsIdChar(w[i])
    ensures SanitizeFrom(w, inRun) == if inRun then "" else "_"
    decreases |w|
  {
    if |w| > 1 {
      SanitizeFromRun(w[1..], true);
    }
  }

  /** The run state does not matter in front of an allowed character. */
  lemma SanitizeFromStateIrrelevant(v: string)
    requires v == [] || IsIdChar(v[0])
    ensures SanitizeFrom(v, true) == SanitizeFrom(v, false)
  {
  }

  /** The defining property: between two allowed contexts, a maximal run of
      disallowed characters collapses to exactly one underscore. */
  lemma SanitizeCollapsesRun(u: string, w: string, v: string)
    requires u == [] || IsIdChar(u[|u| - 1])
    requires |w| > 0
    requires forall i :: 0 <= i < |w| ==> !IsIdChar(w[i])
    requires v == [] || IsIdChar(v[0])
    ensures Sanitize(u + w + v) == Sanitize(u) + "_" + Sanitize(v)
  {
    SanitizeFromAppend(u + w, v, false);
    SanitizeFromAppend(u, w, false);
    assert EndsInRun(u, false) == false;
    SanitizeFromRun(w, false);
    assert (u + w)[|u + w| - 1] == w[|w| - 1];
    SanitizeFromStateIrrelevant(v);
  }

  /** `makeID`: the array `[formId, Sanitize(field)]` joined with `_`. */
  function MakeId(formId: JsVal, field: string): (r: string)
    ensures r == JoinElement(formId) + "_" + Sanitize(field)
  {
    JoinWith([JoinElement(formId), Sanitize(field)], "_")
  }

  /** For a string form id the generated id is that id, an underscore, and a
      suffix made only of allowed characters that is the field name itself when
      the field name is already valid. */
  lemma MakeIdShape(formId: string, field: string)
    ensures |MakeId(Str(formId), field)| > |formId|
    ensures MakeId(Str(formId), field)[..|formId| + 1] == formId + "_"
    ensures AllIdChars(MakeId(Str(formId), field)[|formId| + 1..])
    ensures AllIdChars(field) ==> MakeId(Str(formId), field) == formId + "_" + field
  {
    var r := MakeId(Str(formId), field);
    assert r[|formId| + 1..] == Sanitize(field);
    SanitizeFromOutput(field, false);
    if AllIdChars(field) {
      SanitizeKeepsValid(field);
    }
  }

  /** An absent form id (undefined or null) contributes the empty string. */
  lemma MakeIdWithoutFormId(field: string)
    ensures MakeId(Undefined, field) == "_" + Sanitize(field)
    ensures MakeId(Null, field) == "_" + Sanitize(field)
  {
  }

  /** Two valid words, each followed by a run of disallowed characters, become
      the two words each followed by one underscore. */
  lemma SanitizeTwoWords(a: string, w: string, b: string, t: string)
    requires |a| > 0 && AllIdChars(a) && |b| > 0 && AllIdChars(b)
    requires |w| > 0 && forall i :: 0 <= i < |w| ==> !IsIdChar(w[i])
    requires |t| > 0 && forall i :: 0 <= i < |t| ==> !IsIdChar(t[i])
    ensures Sanitize(a + w + b + t) == a + "_" + b + "_"
  {
    assert a + w + b + t == a + w + (b + t);
    SanitizeCollapsesRun(a, w, b + t);
    SanitizeKeepsValid(a);
    SanitizeFromAppend(b, t, false);
    SanitizeFromKeepsValid(b, false);
    SanitizeFromRun(t, false);
  }

  /** An example: "my field!" under form id "F". */
  lemma MakeIdExample()
    ensures MakeId(Str("F"), "my" + " " + "field" + "!") == "F_my_field_"
  {
    SanitizeTwoWords("my", " ", "field", "!");
    assert JoinElement(Str("F")) == "F";
  }
}

=== FILE: field_filter.dfy ===
/**
  Field selection (`filterAutoDatesAndID`): an attribute name is kept unless it
  matches `/id$|at$/i`, i.e. unless it ends in "id" or "at" in any letter case.
  This drops primary and foreign keys (`id`, `userId`) and timestamps
  (`createdAt`), but equally any other name with those endings (`format`, `paid`).
 */
module FieldFilter {
  import opened Lodash

  /** ASCII lower-casing, the case folding a non-Unicode `/i` regex applies to
      the letters of the pattern. */
  function LowerAscii(c: char): char {
    if 'A' <= c <= 'Z' then (c as int + 32) as char else c
  }

  /** `k` ends in the two-letter lower-case suffix `a b`, ignoring case. */
  predicate EndsWithFolded(k: string, a: char, b: char) {
    |k| >= 2 && LowerAscii(k[|k| - 2]) == a && LowerAscii(k[|k| - 1]) == b
  }

  /** The names `/id$|at$/i` matches. */
  predicate IsAutoField(k: string) {
    EndsWithFolded(k, 'i', 'd') || EndsWithFolded(k, 'a', 't')
  }

  /** `keys.filter(filterAutoDatesAndID)`. */
  function Retain(keys: seq<string>): (r: seq<string>)
    ensures forall k :: k in r <==> k in keys && !IsAutoField(k)
    ensures |r| <= |keys|
  {
    if keys == [] then []
    else if IsAutoField(keys[0]) then Retain(keys[1..])
    else [keys[0]] + Retain(keys[1..])
  }

  /** Filtering distributes over concatenation, so the kept keys appear in
      their original relative order. */
  lemma {:induction false} RetainAppend(a: seq<string>, b: seq<string>)
    ensures Retain(a + b) == Retain(a) + Retain(b)
  {
    if a == [] {
      assert a + b == b;
    } else {
      assert (a + b)[0] == a[0];
      assert (a + b)[1..] == a[1..] + b;
      RetainAppend(a[1..], b);
    }
  }

  /** One key is kept exactly when it is not an automatic field. */
  lemma RetainSingle(k: string)
    ensures Retain([k]) == if IsAutoField(k) then [] else [k]
  {
  }

  /** Distinct attribute names stay distinct after filtering. */
  lemma {:induction false} RetainDistinct(keys: seq<string>)
    requires Distinct(keys)
    ensures Distinct(Retain(keys))
  {
    if keys != [] {
      assert Distinct(keys[1..]);
      RetainDistinct(keys[1..]);
      if !IsAutoField(keys[0]) {
        assert keys[0] !in keys[1..];
        assert keys[0] !in Retain(keys[1..]);
      }
    }
  }

  /** A list without automatic names is kept whole; one made only of them is dropped whole. */
  lemma {:induction false} RetainUniform(keys: seq<string>)
    ensures (forall i :: 0 <= i < |keys| ==> !IsAutoField(keys[i])) ==> Retain(keys) == keys
    ensures (forall i :: 0 <= i < |keys| ==> IsAutoField(keys[i])) ==> Retain(keys) == []
  {
    if keys != [] {
      RetainUniform(keys[1..]);
      assert forall i :: 1 <= i < |keys| ==> keys[1..][i - 1] == keys[i];
    }
  }

  /** Examples of the convention, including its false positives. */
  lemma AutoFieldExamples()
    ensures IsAutoField("id") && IsAutoField("userId") && IsAutoField("createdAt") && IsAutoField("UPDATEDAT")
    ensures IsAutoField("format") && IsAutoField("paid")
    ensures !IsAutoField("name") && !IsAutoField("startDate") && !IsAutoField("i") && !IsAutoField("")
  {
  }
}

=== FILE: field_types.dfy ===
/**
  Model metadata as the builders read it from the ORM (`model.name`,
  `model.rawAttributes`), and the dispatch from an attribute's type to the
  kind of input template that renders it.
 */
module FieldTypes {
  import opened JsValues
  import opened Lodash
  import opened Wrappers

  /** The ORM's type constants the dispatch compares against. Each stands for the
      one value `Sequelize.<NAME>` denotes; distinct tags are distinct values. */
  datatype TypeTag = BOOLEAN | ENUM | DATE | FLOAT | INTEGER | BIGINT | TEXT | VARCHAR | STRING

  /** The value found in an attribute's `type` (or `_typeName`) property. */
  datatype TypeVal =
    | Absent                  // undefined
    | Tag(tag: TypeTag)       // one of the ORM's constants
    | TypeFunction            // any value whose `typeof` is 'function'
    | OtherType(desc: string) // anything else

  /** One entry of `rawAttributes`: its `type`, `_typeName` and `values` properties. */
  datatype AttrDef = AttrDef(typ: TypeVal, typeName: TypeVal, values: JsVal)

  /** A model: its name, the keys of `rawAttributes` in `Object.keys` order, and
      the attribute definitions. */
  datatype ModelDef = ModelDef(name: string, keys: seq<string>, raw: map<string, AttrDef>)

  /** The shape every real `rawAttributes` object has: each key listed once, and
      exactly the defined attributes listed. */
  predicate WellFormed(m: ModelDef) {
    && Distinct(m.keys)
    && (forall k :: k in m.keys ==> k in m.raw)
    && (forall k :: k in m.raw ==> k in m.keys)
  }

  /** The input templates a field can be rendered with. */
  datatype InputKind = Checkbox | Select | Date | Number | Textarea | Text

  /** The template file name of each kind. */
  function KindName(k: InputKind): string {
    match k
    case Checkbox => "checkbox"
    case Select => "select"
    case Date => "date"
    case Number => "number"
    case Textarea => "textarea"
    case Text => "text"
  }

  /** The kind a template file name denotes, if any. */
  function KindOfName(name: string): (r: Option<InputKind>)
    ensures r.Some? ==> KindName(r.value) == name
  {
    if name == "checkbox" then Some(Checkbox)
    else if name == "select" then Some(Select)
    else if name == "date" then Some(Date)
    else if name == "number" then Some(Number)
    else if name == "textarea" then Some(Textarea)
    else if name == "text" then Some(Text)
    else None
  }

  /** Every kind has its own template name. */
  lemma KindNameInjective(k: InputKind)
    ensures KindOfName(KindName(k)) == Some(k)
  {
  }

  /** `path.join(dir, name)` for a directory without trailing separator. */
  function Combine(dir: string, name: string): string {
    dir + "/" + name
  }

  /** lib/formao.js: the `type` property, replaced by `_typeName` when it is a function. */
  function ResolveType(a: AttrDef): (t: TypeVal)
    ensures !a.typ.TypeFunction? ==> t == a.typ
    ensures a.typ.TypeFunction? ==> t == a.typeName
  {
    if a.typ.TypeFunction? then a.typeName else a.typ
  }

  /** `_typeName` and `values` are never consulted for a type that is not a
      function, and a function reaches the `switch` only when `_typeName` is
      itself one, which selects the text input. */
  lemma ResolvedTypeSources(a: AttrDef, n: TypeVal, v: JsVal)
    ensures !a.typ.TypeFunction? ==> ResolveType(AttrDef(a.typ, n, v)) == ResolveType(a)
    ensures ResolveType(a).TypeFunction? <==> a.typ.TypeFunction? && a.typeName.TypeFunction?
    ensures ResolveType(a).TypeFunction? ==> Dispatch(ResolveType(a)) == Text
  {
  }

  /** lib/formao.js: the `switch` on the resolved type. */
  function Dispatch(t: TypeVal): InputKind {
    match t
    case Tag(BOOLEAN) => Checkbox
    case Tag(ENUM) => Select
    case Tag(DATE) => Date
    case Tag(FLOAT) => Number
    case Tag(INTEGER) => Number
    case Tag(BIGINT) => Number
    case Tag(TEXT) => Textarea
    case _ => Text
  }

  /** The dispatch table, read from each kind back to the types that select it. */
  lemma DispatchTable(t: TypeVal)
    ensures Dispatch(t) == Checkbox <==> t == Tag(BOOLEAN)
    ensures Dispatch(t) == Select <==> t == Tag(ENUM)
    ensures Dispatch(t) == Date <==> t == Tag(DATE)
    ensures Dispatch(t) == Number <==> t == Tag(FLOAT) || t == Tag(INTEGER) || t == Tag(BIGINT)
    ensures Dispatch(t) == Textarea <==> t == Tag(TEXT)
    ensures Dispatch(t) == Text <==> !(t.Tag? && t.tag in {BOOLEAN, ENUM, DATE, FLOAT, INTEGER, BIGINT, TEXT})
  {
  }

  /** lib/forms.js: every `case` label reads a property of the empty array
      `database.type`, so each label is `undefined`; the first one, BOOLEAN's,
      catches an undefined type and everything else falls to the default. */
  function LegacyDispatch(t: TypeVal): InputKind {
    if t == Absent then Checkbox else Text
  }

  /** The legacy dispatch only ever chooses a checkbox or a text input, and
      chooses the checkbox exactly for a missing type. */
  lemma LegacyDispatchDegenerate(t: TypeVal)
    ensures LegacyDispatch(t) == Checkbox <==> t.Absent?
    ensures LegacyDispatch(t) in {Checkbox, Text}
    ensures LegacyDispatch(t) != Dispatch(t) <==> t.Absent? || (t.Tag? && t.tag in {BOOLEAN, ENUM, DATE, FLOAT, INTEGER, BIGINT, TEXT})
  {
  }
}

=== FILE: fixtures.dfy ===
/**
  The `MyModel` fixture of test/config.js (STRING, TEXT, DATE, DATE, ENUM and
  BOOLEAN fields, plus the `id`, `createdAt` and `updatedAt` attributes the ORM
  adds to every model) and what both builders make of it.
 */
module Fixtures {
  import opened Wrappers
  import opened JsValues
  import opened FieldFilter
  import opened DomIds
  import opened Lodash
  import opened ClassSplit
  import opened FieldTypes
  import opened Formao
  import opened Forms

  function Plain(t: TypeTag): AttrDef {
    AttrDef(Tag(t), Absent, Undefined)
  }

  const Leading: seq<string> := ["id"]
  const Kept: seq<string> := ["name", "description", "startDate", "endDate", "stage", "completed"]
  const Trailing: seq<string> := ["createdAt", "updatedAt"]

  function MyModel(): ModelDef {
    ModelDef(
      "MyModel",
      Leading + Kept + Trailing,
      map[
        "id" := Plain(INTEGER),
        "name" := Plain(STRING),
        "description" := Plain(TEXT),
        "startDate" := Plain(DATE),
        "endDate" := Plain(DATE),
        "stage" := AttrDef(Tag(ENUM), Absent, Arr([Str("pending"), Str("processed"), Str("cancelled")])),
        "completed" := Plain(BOOLEAN),
        "createdAt" := Plain(DATE),
        "updatedAt" := Plain(DATE)])
  }

  const AllKeys: seq<string> :=
    ["id", "name", "description", "startDate", "endDate", "stage", "completed", "createdAt", "updatedAt"]

  lemma AllKeysDistinct()
    ensures Distinct(AllKeys)
  {
  }

  lemma MyModelKeys()
    ensures MyModel().keys == AllKeys
    ensures forall k :: k in AllKeys <==> k in MyModel().raw
  {
    assert Leading + Kept + Trailing == AllKeys;
  }

  lemma MyModelWellFormed()
    ensures WellFormed(MyModel())
  {
    MyModelKeys();
    AllKeysDistinct();
  }

  lemma KeptAreOrdinary()
    ensures Retain(Kept) == Kept
  {
    assert !IsAutoField("name") && !IsAutoField("description") && !IsAutoField("startDate");
    assert !IsAutoField("endDate") && !IsAutoField("stage") && !IsAutoField("completed");
    RetainUniform(Kept);
  }

  lemma OthersAreAutomatic()
    ensures Retain(Leading) == [] && Retain(Trailing) == []
  {
    assert IsAutoField("id") && IsAutoField("createdAt") && IsAutoField("updatedAt");
    RetainUniform(Leading);
    RetainUniform(Trailing);
  }

  /** The automatic attributes are dropped and the declared ones kept in order. */
  lemma MyModelKeptFields()
    ensures NewForm(MyModel(), None, None).formKeys == Kept
    ensures NewLegacyForm(MyModel(), None, None).formKeys == Kept
  {
    KeptAreOrdinary();
    OthersAreAutomatic();
    RetainAppend(Leading + Kept, Trailing);
    RetainAppend(Leading, Kept);
  }

  /** The configuration of the end-to-end scenario: method PUT, an action, two
      classes and one extra attribute. */
  function Scenario(model: ModelDef): FormState {
    var f0 := NewForm(model, None, None);
    var f1 := SetMethod(f0, Str("PUT"));
    var f2 := SetAction(f1, Str("/testaction"));
    var f3 := AddClass(f2, "mytest verbose");
    AddAttribute(f3, "data-testing", Num(12345))
  }

  /** Splitting a string of two words separated by one space gives the two words. */
  lemma TwoTokens(a: string, b: string)
    requires |a| > 0 && NoSpace(a) && |b| > 0 && NoSpace(b)
    ensures ClassTokens(a + " " + b) == [Str(a), Str(b)]
  {
    SplitJoin([a, b]);
    assert JoinWith([a, b], " ") == a + " " + b;
  }

  lemma ScenarioTokens()
    ensures ClassTokens("mytest verbose") == [Str("mytest"), Str("verbose")]
  {
    assert NoSpace("mytest") && NoSpace("verbose");
    TwoTokens("mytest", "verbose");
    assert "mytest" + " " + "verbose" == "mytest verbose";
  }

  lemma ScenarioClasses(f: FormState)
    requires Classes(f) == []
    ensures Classes(AddClass(f, "mytest verbose")) == [Str("mytest"), Str("verbose")]
  {
    ScenarioTokens();
    AddClassAppends(f, "mytest verbose");
    ExtendFresh([], [Str("mytest"), Str("verbose")]);
  }

  /** The builder's attributes after the scenario's configuration. */
  lemma ScenarioState(model: ModelDef)
    ensures Scenario(model).attr == map[
      "id" := Str(model.name + "_Form"),
      "class" := Arr([Str("mytest"), Str("verbose")]),
      "data-testing" := Num(12345)]
    ensures Scenario(model).model == model && Scenario(model).formKeys == NewForm(model, None, None).formKeys
  {
    var f2 := SetAction(SetMethod(NewForm(model, None, None), Str("PUT")), Str("/testaction"));
    var f3 := AddClass(f2, "mytest verbose");
    ScenarioClasses(f2);
    assert f3.attr.Keys == {"id", "class"};
    assert f3.attr["class"] == Arr([Str("mytest"), Str("verbose")]);
    assert f3.attr["id"] == Str(model.name + "_Form");
  }

  /** The method and action the scenario sets are the ones read back. */
  lemma ScenarioAccessors(model: ModelDef)
    ensures Method(Scenario(model)) == Str("PUT") && Action(Scenario(model)) == Str("/testaction")
  {
  }

  lemma AbcTokens()
    ensures ClassTokens("a b") == [Str("a"), Str("b")]
    ensures ClassTokens("b c") == [Str("b"), Str("c")]
  {
    assert NoSpace("a") && NoSpace("b") && NoSpace("c");
    TwoTokens("a", "b");
    assert "a" + " " + "b" == "a b";
    TwoTokens("b", "c");
    assert "b" + " " + "c" == "b c";
  }

  lemma AddClassFirst(f: FormState)
    requires Classes(f) == []
    ensures Classes(AddClass(f, "a b")) == [Str("a"), Str("b")]
  {
    AbcTokens();
    AddClassAppends(f, "a b");
    ExtendFresh([], [Str("a"), Str("b")]);
  }

  /** Adding tokens of which a first part is already present and the rest is
      new appends just the new part. */
  lemma AddClassSplit(g: FormState, classes: string, present: seq<JsVal>, added: seq<JsVal>)
    requires Distinct(Classes(g)) && Distinct(added)
    requires ClassTokens(classes) == present + added
    requires forall x :: x in present ==> x in Classes(g)
    requires forall x :: x in added ==> x !in Classes(g)
    ensures Classes(AddClass(g, classes)) == Classes(g) + added
  {
    AddClassAppends(g, classes);
    ExtendAppend(Classes(g), present, added);
    ExtendAbsorbed(Classes(g), present);
    ExtendFresh(Classes(g), added);
  }

  lemma AddClassSecond(g: FormState)
    requires Classes(g) == [Str("a"), Str("b")]
    ensures Classes(AddClass(g, "b c")) == [Str("a"), Str("b"), Str("c")]
  {
    AbcTokens();
    assert ClassTokens("b c") == [Str("b")] + [Str("c")];
    AddClassSplit(g, "b c", [Str("b")], [Str("c")]);
  }

  /** `addClass("a b")` then `addClass("b c")` gives the classes a, b, c. */
  lemma AddClassExample(f: FormState)
    requires Classes(f) == []
    ensures Classes(AddClass(AddClass(f, "a b"), "b c")) == [Str("a"), Str("b"), Str("c")]
  {
    AddClassFirst(f);
    AddClassSecond(AddClass(f, "a b"));
  }

  function TestInstance(): JsVal {
    Obj(map["name" := Str("Test name"), "description" := Str("Test description")])
  }

  /** A builder with the default template directory and the fixture's form id,
      filled with the test instance. */
  predicate FilledFixture(f: FormState) {
    && f.templateDir == DefaultTemplateDir
    && Lookup(f.attr, "id") == Str("MyModel_Form") && f.instance == TestInstance()
  }

  lemma FixtureEntries()
    ensures "name" in MyModel().raw && MyModel().raw["name"] == Plain(STRING)
    ensures "description" in MyModel().raw && MyModel().raw["description"] == Plain(TEXT)
    ensures "startDate" in MyModel().raw && MyModel().raw["startDate"] == Plain(DATE)
    ensures "stage" in MyModel().raw && MyModel().raw["stage"].typ == Tag(ENUM)
    ensures MyModel().raw["stage"].values == Arr([Str("pending"), Str("processed"), Str("cancelled")])
    ensures "completed" in MyModel().raw && MyModel().raw["completed"] == Plain(BOOLEAN)
  {
  }

  /** The name field: a text input carrying the instance's value. */
  lemma NameField(f: FormState, blank: JsVal)
    requires FilledFixture(f)
    requires "name" in f.model.raw && f.model.raw["name"] == Plain(STRING)
    ensures FormField(f, "name", blank) == Success(FieldRequest("formao/text",
      FieldData("name", "name", "MyModel_Form_name", Str("Test name"), None, None)))
  {
    assert Sanitize("name") == "name";
    assert MakeId(Str("MyModel_Form"), "name") == "MyModel_Form_name";
    var r := FormField(f, "name", blank);
    assert r.Success?;
    assert Dispatch(ResolveType(f.model.raw["name"])) == Text;
    assert r.value.template == "formao/text";
    assert r.value.data.inputId == "MyModel_Form_name";
    assert r.value.data.value == Str("Test name");
    assert r.value.data.otherAttr == None;
    assert r.value.data.values == None;
  }

  /** The values the test instance supplies, with the fallback for the fields it leaves unset. */
  lemma TestInstanceValues(f: FormState, blank: JsVal)
    requires FilledFixture(f)
    ensures InstanceFor(f, blank) == TestInstance()
    ensures FieldValue(TestInstance(), "description") == Str("Test description")
    ensures FieldValue(TestInstance(), "completed") == Str("")
  {
    assert Get(TestInstance(), "completed") == Undefined;
  }

  /** The template paths under the default directory. */
  lemma DefaultPaths()
    ensures Combine(DefaultTemplateDir, "form") == "formao/form"
    ensures Combine(DefaultTemplateDir, "checkbox") == "formao/checkbox"
    ensures Combine(DefaultTemplateDir, "select") == "formao/select"
    ensures Combine(DefaultTemplateDir, "date") == "formao/date"
    ensures Combine(DefaultTemplateDir, "textarea") == "formao/textarea"
    ensures Combine(DefaultTemplateDir, "text") == "formao/text"
  {
  }

  /** The template paths under the default directory, for any field name. */
  lemma DefaultTemplates(f: FormState, k: string, blank: JsVal)
    requires k in f.model.raw && f.templateDir == DefaultTemplateDir
    ensures var kind := Dispatch(ResolveType(f.model.raw[k]));
            var t := FormField(f, k, blank).value.template;
            && (kind == Checkbox ==> t == "formao/checkbox")
            && (kind == Select ==> t == "formao/select")
            && (kind == Date ==> t == "formao/date")
            && (kind == Textarea ==> t == "formao/textarea")
            && (kind == Text ==> t == "formao/text")
  {
    DefaultPaths();
  }

  /** A filled fixture builder takes every field's value from the test instance. */
  lemma FilledValue(f: FormState, k: string, blank: JsVal)
    requires FilledFixture(f) && k in f.model.raw
    ensures FormField(f, k, blank).value.data.value == FieldValue(TestInstance(), k)
  {
    TestInstanceValues(f, blank);
  }

  lemma TextareaTemplate(f: FormState, k: string, blank: JsVal)
    requires f.templateDir == DefaultTemplateDir
    requires k in f.model.raw && f.model.raw[k] == Plain(TEXT)
    ensures FormField(f, k, blank).value.template == "formao/textarea"
  {
    DefaultTemplates(f, k, blank);
  }

  lemma DescriptionValue(f: FormState, blank: JsVal)
    requires FilledFixture(f) && "description" in f.model.raw
    ensures FormField(f, "description", blank).value.data.value == Str("Test description")
  {
    TestInstanceValues(f, blank);
    FilledValue(f, "description", blank);
  }

  /** The description field: a textarea carrying the instance's value. */
  lemma DescriptionField(f: FormState, blank: JsVal)
    requires FilledFixture(f)
    requires "description" in f.model.raw && f.model.raw["description"] == Plain(TEXT)
    ensures FormField(f, "description", blank).value.template == "formao/textarea"
    ensures FormField(f, "description", blank).value.data.value == Str("Test description")
  {
    TextareaTemplate(f, "description", blank);
    DescriptionValue(f, blank);
  }

  /** The enumeration field: a select carrying the declared values. */
  lemma StageField(f: FormState, blank: JsVal)
    requires FilledFixture(f)
    requires "stage" in f.model.raw && f.model.raw["stage"].typ == Tag(ENUM)
    ensures FormField(f, "stage", blank).value.template == "formao/select"
    ensures FormField(f, "stage", blank).value.data.values == Some(f.model.raw["stage"].values)
  {
    DefaultTemplates(f, "stage", blank);
  }

  /** The boolean field: a checkbox, whose value falls back to '' as the
      instance does not set it. */
  lemma CompletedField(f: FormState, blank: JsVal)
    requires FilledFixture(f)
    requires "completed" in f.model.raw && f.model.raw["completed"] == Plain(BOOLEAN)
    ensures FormField(f, "completed", blank).value.template == "formao/checkbox"
    ensures FormField(f, "completed", blank).value.data.value == Str("")
  {
    TestInstanceValues(f, blank);
    FilledValue(f, "completed", blank);
    DefaultTemplates(f, "completed", blank);
  }

  lemma KeptSet()
    ensures (set k | k in Kept) == {"name", "description", "startDate", "endDate", "stage", "completed"}
  {
  }

  /** Without a request, each kept field's request is the one `formField` makes. */
  lemma PlannedField(f: FormState, blank: JsVal, k: string)
    requires forall k :: k in f.formKeys ==> k in f.model.raw
    requires k in f.formKeys
    ensures Render(f, Undefined, blank).plan.value.fields[k] == FormField(f, k, blank).value
  {
    RenderFieldRequest(f, Undefined, blank, k);
  }

  /** The preconditions the fixture's render lemmas share. */
  predicate FixtureBuilder(f: FormState) {
    && FilledFixture(f) && f.formKeys == Kept
    && (forall k :: k in Kept ==> k in f.model.raw)
    && f.model.raw["name"] == Plain(STRING)
    && f.model.raw["description"] == Plain(TEXT)
    && f.model.raw["stage"].typ == Tag(ENUM)
    && f.model.raw["completed"] == Plain(BOOLEAN)
  }

  /** A filled fixture builder renders one request per kept field, under the
      default form template. */
  lemma FixtureRender(f: FormState, blank: JsVal)
    requires f.templateDir == DefaultTemplateDir && f.formKeys == Kept
    requires forall k :: k in Kept ==> k in f.model.raw
    ensures Render(f, Undefined, blank).plan.Success?
    ensures Render(f, Undefined, blank).plan.value.fields.Keys ==
      {"name", "description", "startDate", "endDate", "stage", "completed"}
    ensures Render(f, Undefined, blank).plan.value.formTemplate == "formao/form"
  {
    KeptSet();
    DefaultPaths();
  }

  /** The name is rendered as a text input with the form-scoped id and the instance's value. */
  lemma FixtureRenderName(f: FormState, blank: JsVal)
    requires FixtureBuilder(f)
    ensures Render(f, Undefined, blank).plan.value.fields["name"] == FieldRequest("formao/text",
      FieldData("name", "name", "MyModel_Form_name", Str("Test name"), None, None))
  {
    NameField(f, blank);
    PlannedField(f, blank, "name");
  }

  /** The description is rendered as a textarea holding the instance's text. */
  lemma FixtureRenderDescription(f: FormState, blank: JsVal)
    requires FixtureBuilder(f)
    ensures Render(f, Undefined, blank).plan.value.fields["description"].template == "formao/textarea"
    ensures Render(f, Undefined, blank).plan.value.fields["description"].data.value == Str("Test description")
  {
    DescriptionField(f, blank);
    PlannedField(f, blank, "description");
  }

  /** The enumeration is rendered as a select over its declared values. */
  lemma FixtureRenderStage(f: FormState, blank: JsVal)
    requires FilledFixture(f) && f.formKeys == Kept
    requires forall k :: k in Kept ==> k in f.model.raw
    requires f.model.raw["stage"].typ == Tag(ENUM)
    ensures Render(f, Undefined, blank).plan.value.fields["stage"].template == "formao/select"
    ensures Render(f, Undefined, blank).plan.value.fields["stage"].data.values == Some(f.model.raw["stage"].values)
  {
    StageField(f, blank);
    PlannedField(f, blank, "stage");
  }

  /** The boolean is rendered as a checkbox. */
  lemma FixtureRenderCompleted(f: FormState, blank: JsVal)
    requires FixtureBuilder(f)
    ensures Render(f, Undefined, blank).plan.value.fields["completed"].template == "formao/checkbox"
  {
    CompletedField(f, blank);
    PlannedField(f, blank, "completed");
  }

  lemma KeptInMyModel()
    ensures forall k :: k in Kept ==> k in MyModel().raw
  {
  }

  /** Filling the configured builder keeps the default template directory, the
      model, its kept fields and the form id derived from the model's name. */
  lemma ScenarioFilled(model: ModelDef)
    ensures var f := Fill(Scenario(model), TestInstance());
            && f.templateDir == DefaultTemplateDir && f.instance == TestInstance()
            && Lookup(f.attr, "id") == Str(model.name + "_Form")
            && f.formKeys == NewForm(model, None, None).formKeys && f.model == model
  {
    ScenarioState(model);
  }

  lemma ScenarioFixtureId(model: ModelDef)
    requires model.name == "MyModel"
    ensures FilledFixture(Fill(Scenario(model), TestInstance()))
  {
    ScenarioFilled(model);
    FixtureFormId();
  }

  lemma FixtureFormId()
    ensures "MyModel" + "_Form" == "MyModel_Form"
  {
  }

  lemma ScenarioKept()
    ensures Fill(Scenario(MyModel()), TestInstance()).formKeys == Kept
    ensures Fill(Scenario(MyModel()), TestInstance()).model == MyModel()
  {
    MyModelKeptFields();
    ScenarioFilled(MyModel());
  }

  /** The configured fixture builder, filled with the test instance, meets the
      render lemmas' preconditions. */
  lemma ScenarioBuilder()
    ensures FixtureBuilder(Fill(Scenario(MyModel()), TestInstance()))
  {
    ScenarioFixtureId(MyModel());
    ScenarioKept();
    KeptInMyModel();
    FixtureEntries();
  }

  /** End to end: the configured fixture builder, filled with the test
      instance, renders the six kept fields and the name as a text input. */
  lemma ScenarioRender(blank: JsVal)
    ensures var out := Render(Fill(Scenario(MyModel()), TestInstance()), Undefined, blank);
            && out.plan.Success?
            && out.plan.value.fields.Keys == {"name", "description", "startDate", "endDate", "stage", "completed"}
            && out.plan.value.fields["name"] == FieldRequest("formao/text",
                 FieldData("name", "name", "MyModel_Form_name", Str("Test name"), None, None))
  {
    var f := Fill(Scenario(MyModel()), TestInstance());
    ScenarioBuilder();
    FixtureRender(f, blank);
    FixtureRenderName(f, blank);
  }

  /** The legacy builder renders a field with a declared type as a text input,
      whatever that type is; every fixture field has one. */
  lemma LegacyTypedIsText(f: LegacyForm, k: string, blank: JsVal)
    requires k in f.model.raw && f.model.raw[k].typ.Tag? && f.templateDir == LegacyTemplateDir
    ensures LegacyFormField(f, k, blank).value.template == "forms/text"
  {
  }

  lemma LegacyFixtureAllText(k: string, blank: JsVal)
    requires k in MyModel().raw
    ensures LegacyFormField(NewLegacyForm(MyModel(), None, None), k, blank).value.template == "forms/text"
  {
    LegacyTypedIsText(NewLegacyForm(MyModel(), None, None), k, blank);
  }
}

=== FILE: formao.dfy ===
/**
  The live form builder of lib/formao.js: an immutable `FormState` standing for
  the builder object's fields, one pure function per prototype method, and the
  computation `render` performs before handing work to the templating engine.
  Chained setters return the new state, which plays the role of `this`.
 */
module Formao {
  import opened Wrappers
  import opened JsValues
  import opened Lodash
  import opened DomIds
  import opened FieldFilter
  import opened ClassSplit
  import opened FieldTypes

  /** The builder's fields: `_model`, `_attr`, `_method`, `_action`, `_instance`,
      `_options.templateDir` and `_formKeys`. */
  datatype FormState = FormState(
    model: ModelDef,
    attr: map<string, JsVal>,
    formMethod: JsVal,
    action: JsVal,
    instance: JsVal,
    templateDir: string,
    formKeys: seq<string>)

  /** The data object handed to a field template. `otherAttr` and `values` are
      `None` when the property is not assigned at all. */
  datatype FieldData = FieldData(
    fieldLabel: string,
    name: string,
    inputId: string,
    value: JsVal,
    otherAttr: Option<map<string, string>>,
    values: Option<JsVal>)

  /** One call `render(template, data)` made for a field. */
  datatype FieldRequest = FieldRequest(template: string, data: FieldData)

  /** Looking up a field the model does not define throws (`dbField.type` on undefined). */
  datatype FormError = MissingAttribute(field: string)

  /** Everything `render` asks the templating engine for: one request per kept
      field, and the form template that receives the rendered fields. */
  datatype RenderPlan = RenderPlan(fields: map<string, FieldRequest>, formTemplate: string)

  /** `render` updates the builder before it can throw, so the new state is
      part of the outcome whether or not the plan is produced. */
  datatype RenderOutcome = RenderOutcome(state: FormState, plan: Result<RenderPlan, FormError>)

  const DefaultTemplateDir: string := "formao"
  const DefaultMethod: string := "POST"

  /** `new Form(model, options, instance)`. The constructor tests `this.arguments`,
      which is never set, so the optional arguments are never applied. */
  function NewForm(model: ModelDef, options: Option<JsVal>, instance: Option<JsVal>): (f: FormState)
    ensures f.attr.Keys == {"id", "class"}
    ensures f.attr["id"] == Str(model.name + "_Form") && f.attr["class"] == Arr([])
    ensures f.formMethod == Str(DefaultMethod) && f.action == Null && f.instance == Null
    ensures f.templateDir == DefaultTemplateDir
    ensures f.model == model
    ensures forall k :: k in f.formKeys <==> k in model.keys && !IsAutoField(k)
  {
    FormState(
      model,
      map["id" := Str(model.name + "_Form"), "class" := Arr([])],
      Str(DefaultMethod),
      Null,
      Null,
      DefaultTemplateDir,
      Retain(model.keys))
  }

  /** Options and instance passed to the constructor make no difference. */
  lemma NewFormIgnoresArguments(model: ModelDef, options: Option<JsVal>, instance: Option<JsVal>)
    ensures NewForm(model, options, instance) == NewForm(model, None, None)
  {
  }

  /** The builder's fields for a model that is well formed: the kept keys are
      listed once each, in the model's order. */
  lemma NewFormKeys(model: ModelDef)
    requires WellFormed(model)
    ensures NewForm(model, None, None).formKeys == Retain(model.keys)
    ensures Distinct(NewForm(model, None, None).formKeys)
    ensures forall k :: k in NewForm(model, None, None).formKeys ==> k in model.raw
  {
    RetainDistinct(model.keys);
  }

  // ----- getters and setters -----

  /** `data()` */
  function Data(f: FormState): JsVal {
    f.instance
  }

  /** `fill(instanceData)` */
  function Fill(f: FormState, instanceData: JsVal): (r: FormState)
    ensures Data(r) == instanceData
    ensures r.(instance := f.instance) == f
  {
    f.(instance := instanceData)
  }

  /** `method()` */
  function Method(f: FormState): JsVal {
    f.formMethod
  }

  /** `method(m)` */
  function SetMethod(f: FormState, m: JsVal): (r: FormState)
    ensures Method(r) == m
    ensures r.(formMethod := f.formMethod) == f
  {
    f.(formMethod := m)
  }

  /** `action()` */
  function Action(f: FormState): JsVal {
    f.action
  }

  /** `action(url)` */
  function SetAction(f: FormState, url: JsVal): (r: FormState)
    ensures Action(r) == url
    ensures r.(action := f.action) == f
  {
    f.(action := url)
  }

  /** Each setter followed by its getter returns the value set; setting the
      current value changes nothing; a second set overrides the first. */
  lemma AccessorRoundTrips(f: FormState, a: JsVal, b: JsVal)
    ensures Method(SetMethod(f, a)) == a && SetMethod(f, Method(f)) == f
    ensures SetMethod(SetMethod(f, a), b) == SetMethod(f, b)
    ensures Action(SetAction(f, a)) == a && SetAction(f, Action(f)) == f
    ensures SetAction(SetAction(f, a), b) == SetAction(f, b)
    ensures Data(Fill(f, a)) == a && Fill(f, Data(f)) == f
    ensures Fill(Fill(f, a), b) == Fill(f, b)
  {
  }

  /** `attr()` */
  function Attr(f: FormState): map<string, JsVal> {
    f.attr
  }

  /** `attr(attributeMap)`: `_.assign` copies the map's entries over the attributes. */
  function MergeAttr(f: FormState, attributeMap: map<string, JsVal>): (r: FormState)
    ensures r.attr.Keys == f.attr.Keys + attributeMap.Keys
    ensures forall k :: k in attributeMap ==> r.attr[k] == attributeMap[k]
    ensures forall k :: k in f.attr && k !in attributeMap ==> r.attr[k] == f.attr[k]
    ensures r.(attr := f.attr) == f
  {
    f.(attr := f.attr + attributeMap)
  }

  /** `addAttribute(key, value)` */
  function AddAttribute(f: FormState, key: string, value: JsVal): (r: FormState)
    ensures r.attr.Keys == f.attr.Keys + {key}
    ensures r.attr[key] == value
    ensures forall k :: k in f.attr && k != key ==> r.attr[k] == f.attr[k]
    ensures r.(attr := f.attr) == f
  {
    f.(attr := f.attr[key := value])
  }

  /** Setting one attribute is merging a one-entry map, and it can be read back. */
  lemma AddAttributeIsMerge(f: FormState, key: string, value: JsVal)
    ensures AddAttribute(f, key, value) == MergeAttr(f, map[key := value])
    ensures Attr(AddAttribute(f, key, value))[key] == value
  {
  }

  /** Merging an empty map changes nothing, and two merges are one merge of
      both maps with the later one winning. */
  lemma MergeAttrLaws(f: FormState, a: map<string, JsVal>, b: map<string, JsVal>)
    ensures MergeAttr(f, map[]) == f
    ensures MergeAttr(MergeAttr(f, a), b) == MergeAttr(f, a + b)
  {
    assert f.attr + map[] == f.attr;
    assert f.attr + a + b == f.attr + (a + b);
  }

  // ----- class list -----

  /** The elements lodash takes from a `_.union` argument: those of an array,
      and none of any other value. */
  function ArrayLike(v: JsVal): seq<JsVal> {
    if v.Arr? then v.elems else []
  }

  /** The class list as it stands in `_attr.class`. */
  function Classes(f: FormState): seq<JsVal> {
    ArrayLike(Lookup(f.attr, "class"))
  }

  /** The strings `classes.split(/\s+/)` produces, as JavaScript values. */
  function ClassTokens(classes: string): (r: seq<JsVal>)
    ensures |r| == |Split(classes)|
    ensures forall i :: 0 <= i < |r| ==> r[i] == Str(Split(classes)[i])
  {
    seq(|Split(classes)|, i requires 0 <= i < |Split(classes)| => Str(Split(classes)[i]))
  }

  /** Every call adds at least one token, and each token is a string without
      white space. */
  lemma ClassTokenShape(classes: string)
    ensures |ClassTokens(classes)| >= 1
    ensures forall t :: t in ClassTokens(classes) ==> t.Str? && NoSpace(t.s)
  {
    SplitPieces(classes);
  }

  /** A class string of single-space-separated words yields exactly those words. */
  lemma ClassTokensOfWords(words: seq<string>)
    requires |words| >= 1
    requires forall i :: 0 <= i < |words| ==> |words[i]| > 0 && NoSpace(words[i])
    ensures ClassTokens(JoinWith(words, " ")) == seq(|words|, i requires 0 <= i < |words| => Str(words[i]))
  {
    SplitJoin(words);
  }

  /** `addClass(classes)`: the union of the current list and the new tokens. */
  function AddClass(f: FormState, classes: string): (r: FormState)
    ensures r.attr.Keys == f.attr.Keys + {"class"}
    ensures r.attr["class"].Arr? && Classes(r) == r.attr["class"].elems
    ensures Distinct(Classes(r))
    ensures forall x :: x in Classes(r) <==> x in Classes(f) || x in ClassTokens(classes)
    ensures forall k :: k in f.attr && k != "class" ==> r.attr[k] == f.attr[k]
    ensures r.(attr := f.attr) == f
  {
    f.(attr := f.attr["class" := Arr(Union(Classes(f), ClassTokens(classes)))])
  }

  /** On a duplicate-free list, `addClass` keeps the list as it was and appends
      each new token not already present, in order. */
  lemma AddClassAppends(f: FormState, classes: string)
    requires Distinct(Classes(f))
    ensures Classes(AddClass(f, classes)) == Extend(Classes(f), ClassTokens(classes))
    ensures |Classes(AddClass(f, classes))| >= |Classes(f)|
    ensures Classes(AddClass(f, classes))[..|Classes(f)|] == Classes(f)
  {
    UnionOfDistinct(Classes(f), ClassTokens(classes));
  }

  /** Repeating an `addClass` call leaves the builder unchanged. */
  lemma AddClassIdempotent(f: FormState, classes: string)
    ensures AddClass(AddClass(f, classes), classes) == AddClass(f, classes)
  {
    var g := AddClass(f, classes);
    UnionIdempotent(Classes(f), ClassTokens(classes));
    assert Classes(g) == Union(Classes(f), ClassTokens(classes));
    assert g.attr["class" := Arr(Union(Classes(g), ClassTokens(classes)))] == g.attr;
  }

  // ----- render -----

  /** The first part of `render`: a missing action defaults to `req.url`, a
      missing instance to `req.body`; "missing" means falsy. */
  function Defaulted(f: FormState, req: JsVal): (r: FormState)
    ensures !Falsy(f.action) ==> r.action == f.action
    ensures !Falsy(f.instance) ==> r.instance == f.instance
    ensures Falsy(f.action) && !Falsy(req) && !Falsy(Get(req, "url")) ==> r.action == Get(req, "url")
    ensures Falsy(f.instance) && !Falsy(req) && !Falsy(Get(req, "body")) ==> r.instance == Get(req, "body")
    ensures Falsy(req) || Falsy(Get(req, "url")) ==> r.action == f.action
    ensures Falsy(req) || Falsy(Get(req, "body")) ==> r.instance == f.instance
    ensures Falsy(req) ==> r == f
    ensures r.(action := f.action, instance := f.instance) == f
  {
    var url := Get(req, "url");
    var body := Get(req, "body");
    var action := if Falsy(f.action) && !Falsy(req) && !Falsy(url) then url else f.action;
    var instance := if Falsy(f.instance) && !Falsy(req) && !Falsy(body) then body else f.instance;
    f.(action := action, instance := instance)
  }

  /** Defaulting twice with the same request is defaulting once. */
  lemma DefaultedIdempotent(f: FormState, req: JsVal)
    ensures Defaulted(Defaulted(f, req), req) == Defaulted(f, req)
  {
  }

  /** The instance a field reads from: the builder's own, or the ORM's blank
      instance (`model.build({})`, passed in as `blank`) when that is falsy. */
  function InstanceFor(f: FormState, blank: JsVal): (r: JsVal)
    ensures !Falsy(f.instance) ==> r == f.instance
    ensures Falsy(f.instance) ==> r == blank
  {
    Or(f.instance, blank)
  }

  /** The instance fields read from is decided by the last `fill`: a truthy
      value is read from whatever the builder held before, and a falsy one
      sends every read to the blank instance. */
  lemma FillDecidesInstance(f: FormState, g: FormState, v: JsVal, blank: JsVal)
    ensures !Falsy(v) ==> InstanceFor(Fill(f, v), blank) == v
    ensures Falsy(v) ==> InstanceFor(Fill(f, v), blank) == blank
    ensures InstanceFor(Fill(f, v), blank) == InstanceFor(Fill(g, v), blank)
  {
  }

  /** `instance[field] || ''`: the value never reaches a template as undefined,
      null, false, 0 or NaN. */
  function FieldValue(instance: JsVal, field: string): (r: JsVal)
    ensures !Falsy(Get(instance, field)) ==> r == Get(instance, field)
    ensures Falsy(Get(instance, field)) ==> r == Str("")
    ensures Falsy(r) ==> r == Str("")
  {
    Or(Get(instance, field), Str(""))
  }

  /** `formField`: the template and data for one field. */
  function FormField(f: FormState, field: string, blank: JsVal): (r: Result<FieldRequest, FormError>)
    ensures r.Failure? <==> field !in f.model.raw
    ensures r.Failure? ==> r.error == MissingAttribute(field)
    ensures r.Success? ==>
      var kind := Dispatch(ResolveType(f.model.raw[field]));
      && r.value.template == Combine(f.templateDir, KindName(kind))
      && r.value.data.fieldLabel == field && r.value.data.name == field
      && r.value.data.inputId == MakeId(Lookup(f.attr, "id"), field)
      && r.value.data.value == FieldValue(InstanceFor(f, blank), field)
      && (r.value.data.otherAttr.Some? <==> kind == Checkbox)
      && (r.value.data.values.Some? <==> kind == Select)
  {
    if field !in f.model.raw then Failure(MissingAttribute(field))
    else
      var dbField := f.model.raw[field];
      var kind := Dispatch(ResolveType(dbField));
      var data := FieldData(
        field,
        field,
        MakeId(Lookup(f.attr, "id"), field),
        FieldValue(InstanceFor(f, blank), field),
        if kind == Checkbox then Some(map["checked" := "checked"]) else None,
        if kind == Select then Some(dbField.values) else None);
      Success(FieldRequest(Combine(f.templateDir, KindName(kind)), data))
  }

  /** What a checkbox and a select carry besides the common data. */
  lemma FormFieldExtras(f: FormState, field: string, blank: JsVal)
    requires field in f.model.raw
    ensures FormField(f, field, blank).value.data.otherAttr.Some? ==>
      FormField(f, field, blank).value.data.otherAttr.value == map["checked" := "checked"]
    ensures FormField(f, field, blank).value.data.values.Some? ==>
      FormField(f, field, blank).value.data.values.value == f.model.raw[field].values
  {
  }

  /** `field` is the first of `keys` that the model does not define. */
  predicate FirstMissing(f: FormState, keys: seq<string>, field: string) {
    exists i :: 0 <= i < |keys| && keys[i] == field && field !in f.model.raw
      && (forall j :: 0 <= j < i ==> keys[j] in f.model.raw)
  }

  /** The `forEach` over the kept keys: fills `acc` with one request per key, and
      stops at the first key the model does not define. */
  function CollectFields(f: FormState, keys: seq<string>, blank: JsVal, acc: map<string, FieldRequest>)
    : (r: Result<map<string, FieldRequest>, FormError>)
    ensures r.Success? <==> forall k :: k in keys ==> k in f.model.raw
    ensures r.Success? ==> r.value.Keys == acc.Keys + (set k | k in keys)
    ensures r.Success? ==> forall k :: k in keys ==> r.value[k] == FormField(f, k, blank).value
    ensures r.Success? ==> forall k :: k in acc && k !in keys ==> r.value[k] == acc[k]
    ensures r.Failure? ==> FirstMissing(f, keys, r.error.field)
    decreases |keys|
  {
    if keys == [] then Success(acc)
    else
      match FormField(f, keys[0], blank)
      case Failure(e) => Failure(e)
      case Success(req) => CollectFields(f, keys[1..], blank, acc[keys[0] := req])
  }

  /** `render(app, req)`, up to the templating engine. */
  function Render(f: FormState, req: JsVal, blank: JsVal): (r: RenderOutcome)
    ensures r.state == Defaulted(f, req)
    ensures r.plan.Success? <==> forall k :: k in f.formKeys ==> k in f.model.raw
    ensures r.plan.Success? ==> r.plan.value.formTemplate == Combine(f.templateDir, "form")
    ensures r.plan.Success? ==> r.plan.value.fields.Keys == set k | k in f.formKeys
  {
    var g := Defaulted(f, req);
    var plan :=
      match CollectFields(g, g.formKeys, blank, map[])
      case Failure(e) => Failure(e)
      case Success(fields) => Success(RenderPlan(fields, Combine(g.templateDir, "form")));
    RenderOutcome(g, plan)
  }

  /** Each kept field's request is the one `formField` makes on the defaulted builder. */
  lemma RenderFieldRequest(f: FormState, req: JsVal, blank: JsVal, k: string)
    requires Render(f, req, blank).plan.Success? && k in f.formKeys
    ensures Render(f, req, blank).plan.value.fields[k] == FormField(Defaulted(f, req), k, blank).value
  {
  }

  /** A builder made from a well-formed model, however it was configured since,
      renders exactly its kept fields: the model's keys without the automatic ones. */
  lemma RenderKeptFields(model: ModelDef, f: FormState, req: JsVal, blank: JsVal)
    requires WellFormed(model)
    requires f.model == model && f.formKeys == NewForm(model, None, None).formKeys
    ensures Render(f, req, blank).plan.Success?
    ensures Render(f, req, blank).plan.value.fields.Keys == set k | k in model.keys && !IsAutoField(k)
  {
    NewFormKeys(model);
  }

  /** Rendering again after a render asks for the same templates with the same data. */
  lemma RenderTwice(f: FormState, req: JsVal, blank: JsVal)
    ensures Render(Render(f, req, blank).state, req, blank) == Render(f, req, blank)
  {
    DefaultedIdempotent(f, req);
  }

  /** A builder that was never filled takes its field values from the request body. */
  lemma RenderFillsFromBody(f: FormState, req: JsVal, blank: JsVal, k: string)
    requires Falsy(f.instance) && !Falsy(req) && !Falsy(Get(req, "body"))
    requires k in f.formKeys && k in f.model.raw
    requires Render(f, req, blank).plan.Success?
    ensures Render(f, req, blank).plan.value.fields[k].data.value == FieldValue(Get(req, "body"), k)
  {
    RenderFieldRequest(f, req, blank, k);
  }
}

=== FILE: forms.dfy ===
/**
  The older builder of lib/forms.js. It shares the field filter and the id
  generation with lib/formao.js. Among its differences: its type dispatch is
  degenerate and switches on the raw `type` without the `_typeName` fallback,
  its `addClass` intersects instead of uniting, its `addAttribute` returns
  undefined, its default template directory is "forms", and it exports
  `buildValidationClasses`.
 */
module Forms {
  import opened Wrappers
  import opened JsValues
  import opened Lodash
  import opened DomIds
  import opened FieldFilter
  import opened ClassSplit
  import opened FieldTypes
  import opened Formao

  /** The builder's fields: `model`, `attr`, `extraClasses`, `method`, `action`,
      `instance`, `options.templateDir` and `formKeys`. */
  datatype LegacyForm = LegacyForm(
    model: ModelDef,
    attr: map<string, JsVal>,
    extraClasses: seq<string>,
    formMethod: JsVal,
    action: JsVal,
    instance: JsVal,
    templateDir: string,
    formKeys: seq<string>)

  const LegacyTemplateDir: string := "forms"

  /** `new Form(model, options, instance)` of lib/forms.js; as in lib/formao.js the
      optional arguments are never applied. */
  function NewLegacyForm(model: ModelDef, options: Option<JsVal>, instance: Option<JsVal>): (f: LegacyForm)
    ensures f.attr.Keys == {"id"} && f.attr["id"] == Str(model.name + "_Form")
    ensures f.extraClasses == []
    ensures f.formMethod == Str(DefaultMethod) && f.action == Null && f.instance == Null
    ensures f.templateDir == LegacyTemplateDir
    ensures f.model == model
  {
    LegacyForm(
      model,
      map["id" := Str(model.name + "_Form")],
      [],
      Str(DefaultMethod),
      Null,
      Null,
      LegacyTemplateDir,
      Retain(model.keys))
  }

  /** Both builders keep the same fields and generate ids from the same form id. */
  lemma LegacySharesKeysAndId(model: ModelDef, options: Option<JsVal>, instance: Option<JsVal>)
    ensures NewLegacyForm(model, options, instance).formKeys == NewForm(model, None, None).formKeys
    ensures Lookup(NewLegacyForm(model, options, instance).attr, "id") == Lookup(NewForm(model, None, None).attr, "id")
  {
  }

  /** `fill(instanceData)` */
  function LegacyFill(f: LegacyForm, instanceData: JsVal): (r: LegacyForm)
    ensures r.instance == instanceData
    ensures r.(instance := f.instance) == f
  {
    f.(instance := instanceData)
  }

  /** `addAttribute(key, value)`: sets one attribute (and returns undefined, so it
      cannot be chained). */
  function LegacyAddAttribute(f: LegacyForm, key: string, value: JsVal): (r: LegacyForm)
    ensures r.attr.Keys == f.attr.Keys + {key}
    ensures r.attr[key] == value
    ensures forall k :: k in f.attr && k != key ==> r.attr[k] == f.attr[k]
    ensures r.(attr := f.attr) == f
  {
    f.(attr := f.attr[key := value])
  }

  /** `addClass(classes)`: `_.intersection` of the current list with the tokens. */
  function LegacyAddClass(f: LegacyForm, classes: string): (r: LegacyForm)
    ensures forall c :: c in r.extraClasses <==> c in f.extraClasses && c in Split(classes)
    ensures |r.extraClasses| <= |f.extraClasses|
    ensures r.(extraClasses := f.extraClasses) == f
  {
    f.(extraClasses := Intersection(f.extraClasses, Split(classes)))
  }

  /** On a duplicate-free list, `addClass` keeps, in their order, exactly the
      classes that are among the new tokens. */
  lemma LegacyAddClassOrder(f: LegacyForm, classes: string)
    requires Distinct(f.extraClasses)
    ensures LegacyAddClass(f, classes).extraClasses == Keep(f.extraClasses, Split(classes))
  {
    IntersectionOrder(f.extraClasses, Split(classes));
  }

  /** A chain of `addClass` calls, applied in order. */
  function LegacyAddClasses(f: LegacyForm, calls: seq<string>): LegacyForm
    decreases |calls|
  {
    if calls == [] then f else LegacyAddClasses(LegacyAddClass(f, calls[0]), calls[1..])
  }

  /** The class list never grows, so starting from the constructor's empty list
      it stays empty whatever classes are added. */
  lemma {:induction false} LegacyClassesNeverGrow(f: LegacyForm, calls: seq<string>)
    ensures |LegacyAddClasses(f, calls).extraClasses| <= |f.extraClasses|
    ensures forall c :: c in LegacyAddClasses(f, calls).extraClasses ==> c in f.extraClasses
    ensures LegacyAddClasses(f, calls).(extraClasses := f.extraClasses) == f
    decreases |calls|
  {
    if calls != [] {
      LegacyClassesNeverGrow(LegacyAddClass(f, calls[0]), calls[1..]);
    }
  }

  lemma LegacyClassesStayEmpty(model: ModelDef, calls: seq<string>)
    ensures LegacyAddClasses(NewLegacyForm(model, None, None), calls).extraClasses == []
  {
    LegacyClassesNeverGrow(NewLegacyForm(model, None, None), calls);
  }

  /** `formField` of lib/forms.js: the same data record, the degenerate dispatch
      on the raw `type` property, templates under the legacy directory. */
  function LegacyFormField(f: LegacyForm, field: string, blank: JsVal): (r: Result<FieldRequest, FormError>)
    ensures r.Failure? <==> field !in f.model.raw
    ensures r.Success? ==>
      var kind := LegacyDispatch(f.model.raw[field].typ);
      && r.value.template == Combine(f.templateDir, KindName(kind))
      && r.value.data.fieldLabel == field && r.value.data.name == field
      && r.value.data.inputId == MakeId(Lookup(f.attr, "id"), field)
      && r.value.data.value == FieldValue(Or(f.instance, blank), field)
      && (r.value.data.otherAttr.Some? <==> kind == Checkbox)
      && r.value.data.values.None?
  {
    if field !in f.model.raw then Failure(MissingAttribute(field))
    else
      var kind := LegacyDispatch(f.model.raw[field].typ);
      var data := FieldData(
        field,
        field,
        MakeId(Lookup(f.attr, "id"), field),
        FieldValue(Or(f.instance, blank), field),
        if kind == Checkbox then Some(map["checked" := "checked"]) else None,
        None);
      Success(FieldRequest(Combine(f.templateDir, KindName(kind)), data))
  }

  /** The two builders agree on everything but the template for a field, given the
      same form id and instance; they choose a select, date, number or textarea
      template only in lib/formao.js. */
  lemma FieldDataAgrees(f: FormState, g: LegacyForm, field: string, blank: JsVal)
    requires f.model == g.model && field in f.model.raw
    requires Lookup(f.attr, "id") == Lookup(g.attr, "id") && f.instance == g.instance
    ensures var a := FormField(f, field, blank).value.data;
            var b := LegacyFormField(g, field, blank).value.data;
            a.fieldLabel == b.fieldLabel && a.name == b.name && a.inputId == b.inputId && a.value == b.value
    ensures LegacyFormField(g, field, blank).value.template
      in {Combine(g.templateDir, "checkbox"), Combine(g.templateDir, "text")}
  {
  }

  // ----- validation classes -----

  /** The own enumerable properties `for...in` with `hasOwnProperty` visits. */
  function OwnProps(v: JsVal): map<string, JsVal> {
    if v.Obj? then v.props else map[]
  }

  /** The attributes that mark an invalid input with its message. */
  function ErrorMarker(message: JsVal): JsVal {
    Obj(map["class" := Str("has-error"), "data-message" := message])
  }

  /** `buildValidationClasses(validationErrors)` */
  function BuildValidationClasses(validationErrors: JsVal): (r: JsVal)
    ensures r.Obj? && r.props.Keys == OwnProps(validationErrors).Keys
    ensures forall k :: k in r.props ==>
      r.props[k].Obj? && r.props[k].props.Keys == {"class", "data-message"} &&
      Get(r.props[k], "class") == Str("has-error") && Get(r.props[k], "data-message") == OwnProps(validationErrors)[k]
  {
    var errors := OwnProps(validationErrors);
    Obj(map k | k in errors :: ErrorMarker(errors[k]))
  }

  /** Reads the messages back out of a validation-classes object. */
  function Messages(classes: JsVal): map<string, JsVal> {
    var m := OwnProps(classes);
    map k | k in m :: Get(m[k], "data-message")
  }

  /** Every field's message survives the transformation: reading the messages
      back gives exactly the original errors. */
  lemma ValidationMessagesRoundTrip(validationErrors: JsVal)
    ensures Messages(BuildValidationClasses(validationErrors)) == OwnProps(validationErrors)
  {
  }
}

=== FILE: js_values.dfy ===
/**
  The fragment of JavaScript's value universe that the form builder touches:
  primitives, arrays and plain objects, together with the language rules the
  builder relies on -- truthiness, own-property access, string conversion and
  `Array.prototype.join`.
 */
module JsValues {

  /** A JavaScript value. Numbers are restricted to integers (plus NaN);
      objects are plain records of own enumerable properties. */
  datatype JsVal =
    | Undefined
    | Null
    | Bool(b: bool)
    | Num(n: int)
    | NaN
    | Str(s: string)
    | Arr(elems: seq<JsVal>)
    | Obj(props: map<string, JsVal>)

  /** The falsy values of JavaScript: undefined, null, false, 0 (and -0), NaN and ''.
      Every array and every object is truthy. */
  predicate Falsy(v: JsVal) {
    match v
    case Undefined => true
    case Null => true
    case Bool(b) => !b
    case Num(n) => n == 0
    case NaN => true
    case Str(s) => s == ""
    case Arr(_) => false
    case Obj(_) => false
  }

  /** `v[key]` for a value whose properties of interest are its own enumerable ones. */
  function Get(v: JsVal, key: string): (r: JsVal)
    ensures v.Obj? && key in v.props ==> r == v.props[key]
    ensures !(v.Obj? && key in v.props) ==> r == Undefined
  {
    match v
    case Obj(m) => if key in m then m[key] else Undefined
    case _ => Undefined
  }

  /** `m[key]` on a property map: `undefined` when the key is absent. */
  function Lookup(m: map<string, JsVal>, key: string): (r: JsVal)
    ensures key in m ==> r == m[key]
    ensures key !in m ==> r == Undefined
  {
    if key in m then m[key] else Undefined
  }

  /** `a || b`: the left operand when it is truthy, otherwise the right one. */
  function Or(a: JsVal, b: JsVal): (r: JsVal)
    ensures !Falsy(a) ==> r == a
    ensures Falsy(a) ==> r == b
  {
    if Falsy(a) then b else a
  }

  function DigitChar(d: nat): (c: char)
    requires d < 10
    ensures '0' <= c <= '9'
  {
    "0123456789"[d]
  }

  /** Decimal digits of a natural number, most significant first. */
  function NatToDecimal(n: nat): (r: string)
    ensures |r| >= 1
    ensures forall i :: 0 <= i < |r| ==> '0' <= r[i] <= '9'
    decreases n
  {
    if n < 10 then [DigitChar(n)] else NatToDecimal(n / 10) + [DigitChar(n % 10)]
  }

  /** Joins `parts`, placing `sep` between consecutive parts. */
  function JoinWith(parts: seq<string>, sep: string): (r: string)
    ensures |parts| == 1 ==> r == parts[0]
    decreases |parts|
  {
    if |parts| == 0 then ""
    else if |parts| == 1 then parts[0]
    else parts[0] + sep + JoinWith(parts[1..], sep)
  }

  /** `String(v)` for the values modelled here. */
  function ToStr(v: JsVal): string
    decreases v, 0
  {
    match v
    case Undefined => "undefined"
    case Null => "null"
    case Bool(b) => if b then "true" else "false"
    case Num(n) => if n < 0 then "-" + NatToDecimal(-n) else NatToDecimal(n)
    case NaN => "NaN"
    case Str(s) => s
    case Arr(xs) => JoinWith(seq(|xs|, i requires 0 <= i < |xs| => JoinElement(xs[i])), ",")
    case Obj(_) => "[object Object]"
  }

  /** How `Array.prototype.join` renders one element: undefined and null become
      the empty string, everything else its string conversion. */
  function JoinElement(v: JsVal): (r: string)
    ensures v.Str? ==> r == v.s
    ensures v.Undefined? || v.Null? ==> r == ""
    decreases v, 1
  {
    if v.Undefined? || v.Null? then "" else ToStr(v)
  }
}

=== FILE: lodash.dfy ===
/**
  The two lodash array helpers the builders use to maintain class lists:
  `_.union` (lib/formao.js) and `_.intersection` (lib/forms.js). Both compare
  with SameValueZero, modelled here as value equality: for primitives the two
  agree, but arrays and objects, which SameValueZero compares by identity, are
  compared here by contents.
 */
module Lodash {

  predicate Distinct<T(==,!new)>(s: seq<T>) {
    forall i, j :: 0 <= i < j < |s| ==> s[i] != s[j]
  }

  /** Appends to `acc`, in order, each element of `xs` not seen before: the
      first-occurrence de-duplication lodash performs (`baseUniq`). */
  function Extend<T(==,!new)>(acc: seq<T>, xs: seq<T>): (r: seq<T>)
    ensures forall x :: x in r <==> x in acc || x in xs
    ensures |acc| <= |r| && r[..|acc|] == acc
    ensures Distinct(acc) ==> Distinct(r)
    decreases |xs|
  {
    if xs == [] then acc
    else if xs[0] in acc then Extend(acc, xs[1..])
    else Extend(acc + [xs[0]], xs[1..])
  }

  /** `_.union(a, b)`: the distinct elements of `a` then `b`, in order of first occurrence. */
  function Union<T(==,!new)>(a: seq<T>, b: seq<T>): (r: seq<T>)
    ensures forall x :: x in r <==> x in a || x in b
    ensures Distinct(r)
  {
    Extend([], a + b)
  }

  /** Extending by a concatenation is extending by each part in turn. */
  lemma {:induction false} ExtendAppend<T(!new)>(acc: seq<T>, a: seq<T>, b: seq<T>)
    ensures Extend(acc, a + b) == Extend(Extend(acc, a), b)
    decreases |a|
  {
    if a == [] {
      assert a + b == b;
    } else {
      assert (a + b)[0] == a[0];
      assert (a + b)[1..] == a[1..] + b;
      if a[0] in acc {
        ExtendAppend(acc, a[1..], b);
      } else {
        ExtendAppend(acc + [a[0]], a[1..], b);
      }
    }
  }

  lemma DistinctTail<T(!new)>(xs: seq<T>)
    requires Distinct(xs) && xs != []
    ensures Distinct(xs[1..])
    ensures xs[0] !in xs[1..]
  {
    var rest := xs[1..];
    forall i, j | 0 <= i < j < |rest| ensures rest[i] != rest[j] {
      assert rest[i] == xs[i + 1] && rest[j] == xs[j + 1];
    }
  }

  lemma SplitFirst<T>(acc: seq<T>, xs: seq<T>)
    requires xs != []
    ensures acc + [xs[0]] + xs[1..] == acc + xs
  {
    assert xs == [xs[0]] + xs[1..];
  }

  /** Elements that are all new and distinct are appended unchanged. */
  lemma {:induction false} ExtendFresh<T(!new)>(acc: seq<T>, xs: seq<T>)
    requires Distinct(xs)
    requires forall x :: x in xs ==> x !in acc
    ensures Extend(acc, xs) == acc + xs
    decreases |xs|
  {
    if xs == [] {
      assert acc + xs == acc;
    } else {
      var y, rest := xs[0], xs[1..];
      assert y in xs;
      DistinctTail(xs);
      assert forall x :: x in rest ==> x in xs;
      ExtendFresh(acc + [y], rest);
      SplitFirst(acc, xs);
    }
  }

  /** Elements already present change nothing. */
  lemma {:induction false} ExtendAbsorbed<T(!new)>(acc: seq<T>, xs: seq<T>)
    requires forall x :: x in xs ==> x in acc
    ensures Extend(acc, xs) == acc
    decreases |xs|
  {
    if xs != [] {
      assert xs[0] in acc;
      ExtendAbsorbed(acc, xs[1..]);
    }
  }

  /** The union of a duplicate-free list with `b` keeps that list as a prefix
      and appends the new elements of `b`. */
  lemma UnionOfDistinct<T(!new)>(a: seq<T>, b: seq<T>)
    requires Distinct(a)
    ensures Union(a, b) == Extend(a, b)
  {
    ExtendAppend([], a, b);
    ExtendFresh([], a);
    assert [] + a == a;
  }

  /** Taking the union with the same list a second time changes nothing. */
  lemma UnionIdempotent<T(!new)>(a: seq<T>, b: seq<T>)
    ensures Union(Union(a, b), b) == Union(a, b)
  {
    UnionOfDistinct(Union(a, b), b);
    ExtendAbsorbed(Union(a, b), b);
  }

  /** Keeps, in order, the elements of `xs` that occur in `other` and are not in
      `acc` yet. */
  function IntersectFrom<T(==,!new)>(acc: seq<T>, xs: seq<T>, other: seq<T>): (r: seq<T>)
    ensures forall x :: x in r <==> x in acc || (x in xs && x in other)
    ensures |acc| <= |r| <= |acc| + |xs| && r[..|acc|] == acc
    ensures Distinct(acc) ==> Distinct(r)
    decreases |xs|
  {
    if xs == [] then acc
    else if xs[0] in other && xs[0] !in acc then IntersectFrom(acc + [xs[0]], xs[1..], other)
    else IntersectFrom(acc, xs[1..], other)
  }

  /** `_.intersection(a, b)`: the distinct elements of `a` that also occur in `b`,
      in the order of `a`. */
  function Intersection<T(==,!new)>(a: seq<T>, b: seq<T>): (r: seq<T>)
    ensures forall x :: x in r <==> x in a && x in b
    ensures |r| <= |a|
    ensures Distinct(r)
  {
    IntersectFrom([], a, b)
  }

  /** The elements of `xs` that occur in `other`, in order, duplicates included:
      a reference definition of the filtering `_.intersection` performs. */
  function Keep<T(==,!new)>(xs: seq<T>, other: seq<T>): (r: seq<T>)
    ensures forall x :: x in r <==> x in xs && x in other
    ensures |r| <= |xs|
  {
    if xs == [] then []
    else (if xs[0] in other then [xs[0]] else []) + Keep(xs[1..], other)
  }

  /** Filtering a duplicate-free list gives a duplicate-free list. */
  lemma {:induction false} KeepDistinct<T(!new)>(xs: seq<T>, other: seq<T>)
    requires Distinct(xs)
    ensures Distinct(Keep(xs, other))
    decreases |xs|
  {
    if xs != [] {
      DistinctTail(xs);
      KeepDistinct(xs[1..], other);
      var rest := Keep(xs[1..], other);
      var r := Keep(xs, other);
      if xs[0] in other {
        assert xs[0] !in rest;
        assert r == [xs[0]] + rest;
        forall i, j | 0 <= i < j < |r| ensures r[i] != r[j] {
          assert r[j] == rest[j - 1];
          if i > 0 {
            assert r[i] == rest[i - 1];
          } else {
            assert r[j] in rest;
          }
        }
      } else {
        assert r == rest;
      }
    }
  }

  /** The scan is first-occurrence de-duplication of the filtered list. */
  lemma {:induction false} IntersectFromKeep<T(!new)>(acc: seq<T>, xs: seq<T>, other: seq<T>)
    ensures IntersectFrom(acc, xs, other) == Extend(acc, Keep(xs, other))
    decreases |xs|
  {
    if xs != [] {
      var rest := Keep(xs[1..], other);
      IntersectFromKeep(acc, xs[1..], other);
      if xs[0] in other {
        var k := Keep(xs, other);
        assert k == [xs[0]] + rest;
        assert k[0] == xs[0] && k[1..] == rest;
        if xs[0] !in acc {
          IntersectFromKeep(acc + [xs[0]], xs[1..], other);
        }
      } else {
        assert Keep(xs, other) == rest;
      }
    }
  }

  /** `_.intersection(a, b)` keeps the order of `a`: it is the de-duplicated
      filter of `a` by `b`, and exactly that filter when `a` has no duplicates. */
  lemma IntersectionOrder<T(!new)>(a: seq<T>, b: seq<T>)
    ensures Intersection(a, b) == Extend([], Keep(a, b))
    ensures Distinct(a) ==> Intersection(a, b) == Keep(a, b)
  {
    IntersectFromKeep([], a, b);
    if Distinct(a) {
      KeepDistinct(a, b);
      ExtendFresh([], Keep(a, b));
      assert [] + Keep(a, b) == Keep(a, b);
    }
  }
}

=== FILE: wrappers.dfy ===
/** Optional values and outcomes used throughout the model. */
module Wrappers {

  /** An optional value: a property that is either assigned or absent. */
  datatype Option<+T> = None | Some(value: T)

  /** The outcome of an operation that can throw. */
  datatype Result<+R, +E> = Success(value: R) | Failure(error: E)
}
